=== FILE: README.md ===
# LSP-pyright interpreter resolution, modelled in Dafny

This project models the decision logic of the LSP-pyright plugin for Sublime
Text (`plugin.py`). That logic chooses the Python interpreter the Pyright
language server is started with, and the extra analysis paths it is given:

- **Project-root detection** (`ROOT_FILES`, `USER_HOME`, `is_project_root`
  behind its `lru_cache`). A directory is a project root when it is the home
  directory or holds one of seven marker files.
- **The upward venv walk** (`_venv_path`, `_find_venv`, `resolve_virtualenv`).
  From a folder it climbs through `dirname`s. It stops at the first directory
  holding `venv/bin/<python_exe>`, or at a project root. It also stops when
  `dirname` makes no progress or reaches the home directory.
- **The startup resolver** (`resolve_python_path_from_venv` with its inner
  `binary_from_python_path` and `binary_from_venv`, and the `or "python"` of
  `on_pre_start`). It tries these in order:
  1. an explicit `python.pythonPath`;
  2. the tool rules for `Pipfile` (`pipenv --py`), `poetry.lock`
     (`poetry env info -p`, then `binary_from_python_path`) and
     `.python-version` (`pyenv which python`), each run in the first
     workspace folder;
  3. a `venv` or `.venv` subfolder;
  4. any other subfolder in listing order.
- **The list logic of `find_package_dependency_dirs`**. It retargets
  `sys.path` at the server's Python version with the substitution
  `(python3\.?)[38]` → `\g<1>3` or `\g<1>8`. It then moves the packages path
  to the end, puts the Sublime Text stubs first, and keeps only directories.

## How the model is built

- The host is a value `Env`:
  - a filesystem snapshot `Fs`: the set of regular files, plus each directory
    with its `os.listdir` entries in order;
  - the home directory;
  - the platform.

  Paths follow POSIX `os.path` (posixpath) syntax. `Join` and `DirName` are
  written out character by character.
- External commands are an oracle `Runner` from a command line and working
  directory to a `CommandResult`: the output, `FileNotFoundError`,
  `CalledProcessError`, or any other `OSError`.
- The resolver returns an `Outcome`. It holds:
  - the result, or the exception that escapes;
  - the commands it started, in order;
  - the warnings it printed.
- The `lru_cache` is an explicit sequence of memoised answers, from least to most
  recently used, threaded through `CachedIsProjectRoot`. It holds at most 128
  entries, the default bound of a bare `@lru_cache`.
- Searches that stop at the first match are paired with an index function
  that acts as their reference definition: `FirstStop`, `FirstDecisive`,
  `FirstVenvChild` and `FirstFolderWithVenv`. A lemma shows that each loop
  returns what sits at that index.

Two behaviours of the code may surprise a reader. The model keeps both as
written:

- When a rule's command succeeds, the post-processed value is returned as it
  is (`plugin.py:238`). If `binary_from_python_path` finds no interpreter in
  the `poetry` environment, the resolver returns nothing at once. The later
  rules and the subfolder search are skipped, even a valid `venv` next to the
  lock file. `Scenarios.EmptyPostProcessingIsFinal` states this, and
  `Scenarios.EmptyPostProcessingHidesVenv` shows it on a concrete folder.
- The upward walk always probes `venv/bin/<python_exe>` (`plugin.py:149`),
  which on Windows is `venv/bin/python.exe`. It never probes
  `Scripts/python.exe`, unlike `binary_from_python_path`.
  `Scenarios.WalkIgnoresScriptsOnWindows` and `Scenarios.WalkFindsBinOnWindows`
  show both sides.

## Model

| member | source | states |
|---|---|---|
| `ProjectRoot.IsProjectRoot` | plugin.py:36-42 | the definition the detector is checked against: the home directory, or a directory with some marker of `ROOT_FILES` directly under it |
| `ProjectRoot.CheckProjectRoot` | plugin.py:36-42 | true exactly when the directory is the home directory or some marker of `ROOT_FILES` exists directly under it, whatever order the set is scanned in |
| `ProjectRoot.FindEntry` | plugin.py:35 | the cache lookup: the position of the path's entry, or the end exactly when the path is not cached |
| `ProjectRoot.Record` | plugin.py:35 | the least-recently-used bookkeeping: the asked path becomes the most recent entry and the other entries keep their order; a hit takes the path's entry out of its place, a miss with room keeps every entry, and a miss on a full cache drops the first, least recently used, entry; the bound, one entry per path and every answer are kept |
| `ProjectRoot.CachedIsProjectRoot` | plugin.py:35-42 | from a valid cache, the memoised call returns the uncached answer; the cache stays within 128 entries, each correct, one per path; the asked path becomes the most recent entry, the others keep their recency order, and on a miss with a full cache the least recently used entry is the one evicted |
| `VenvWalk.VenvPath` | plugin.py:147-150 | `_venv_path` returns a path exactly when `root/<venv_name>/bin/<python_exe>` exists, and the path it returns is that one |
| `VenvWalk.Walk` | plugin.py:156-166 | the `while True` loop itself, over the venv and root oracles; what it returns is stated by `VenvWalk.WalkIsFirstStop` |
| `VenvWalk.FindVenv` | plugin.py:152-166 | a start directory that does not exist yields nothing; otherwise the answer is the `venv` interpreter of the first ancestor that holds one or is a project root, and nothing if that ancestor has none or there is none; a found interpreter exists |
| `VenvWalk.Ancestors` | plugin.py:162-166 | the walk's candidate directories: they start at the folder, each is the `dirname` of the one before and strictly shorter, none after the first is the home directory, and the last is where `dirname` makes no progress or reaches home |
| `VenvWalk.Visited` | plugin.py:156-166 | the directories the walk inspects start at the folder; every one before the last holds no venv and is no project root, and none after the first is home |
| `VenvWalk.FirstStop` | plugin.py:157-161 | index of the first candidate holding a venv or being a project root: none before it qualifies, and it does if it is in range |
| `VenvWalk.WalkIsFirstStop` | plugin.py:156-166 | the `while True` loop returns the venv of the first candidate that has one or is a project root, and nothing if there is none |
| `VenvWalk.WalkFinds` | plugin.py:156-161 | the walk's answer is the venv probe of the last directory it visits |
| `VenvWalk.FirstStopAgrees` | plugin.py:157-161 | two pairs of probes that agree up to the first stop stop at the same candidate |
| `VenvWalk.FindVenvReadsOnlyVisited` | plugin.py:153-166 | two filesystems that agree on the start and on the venv and root markers of the visited directories give the same `_find_venv` answer, whatever lies above |
| `VenvWalk.FirstFolderWithVenv` | plugin.py:183-186 | index of the first workspace folder whose walk finds a venv: no earlier folder's does |
| `VenvWalk.FirstVenv` | plugin.py:182-188 | the `for folder in folders` loop itself; what it returns is stated by `VenvWalk.FirstVenvIsFirstFolder` |
| `VenvWalk.FirstVenvIsFirstFolder` | plugin.py:182-188 | the `for folder in folders` loop returns the venv of the first folder whose walk finds one, and nothing if none does |
| `VenvWalk.ResolveVirtualenv` | plugin.py:170-188 | a non-empty `python.pythonPath` is returned unchanged; otherwise the venv of the first folder whose walk finds one, or nothing |
| `Resolver.BinaryFromPythonPath` | plugin.py:200-206 | returns `Scripts/python.exe` (Windows) or `bin/python` under the path exactly when that is a regular file |
| `Resolver.BinaryFromVenv` | plugin.py:248-250 | returns the interpreter of `root/child` exactly when `root/child/pyvenv.cfg` and the platform's interpreter are both regular files |
| `Resolver.PostProcess` | plugin.py:238 | a rule's result is nothing exactly when it is the `poetry` rule and the environment's interpreter is not a regular file; otherwise it is the output itself, or for `poetry` that interpreter, which is then a regular file |
| `Resolver.RunRules` | plugin.py:231-246 | every command runs in the workspace folder, at most one per rule; a loop that falls through leaves one warning per command, and one that ends leaves one fewer |
| `Resolver.FiredRules` | plugin.py:232-233 | every rule it selects is in the rule list and has its marker file present, and it selects no more rules than the list has |
| `Resolver.FiredRulesSelects` | plugin.py:232-233 | every rule of the list whose marker file is present is selected, and the selection keeps the list's order |
| `Resolver.FiredRulesCounts` | plugin.py:232-233 | a marked rule is selected as often as it occurs in the list, an unmarked one never; with the order this fixes the selection |
| `Resolver.FirstDecisive` | plugin.py:233-238 | index of the first rule whose marker is a file and whose command neither is missing nor exits non-zero |
| `Resolver.Decide` | plugin.py:234-238 | how a command that is neither missing nor failed ends the loop: its stripped, post-processed output is returned, or its `OSError` escapes |
| `Resolver.CascadeIsFirstDecisive` | plugin.py:231-246 | the rule loop's verdict is decided by the first such rule (its post-processed output, or its escaping `OSError`), and it falls through when there is none |
| `Resolver.CascadeRunsFiredRules` | plugin.py:231-246 | the commands started are exactly those of the marked rules before the decisive one, in order, then the decisive rule's |
| `Resolver.CascadeWarnsPerSkippedRule` | plugin.py:239-246 | one warning per marked rule before the decisive one, in order, each naming that rule's marker file |
| `Resolver.DecidedPathProvenance` | plugin.py:234-238 | a path the rule loop returns is a regular file or the stripped output of the last command it ran |
| `Resolver.FirstVenvChild` | plugin.py:258-263 | index of the first listing entry other than `venv`/`.venv` that is a valid venv |
| `Resolver.SearchListing` | plugin.py:258-263 | the `for file in os.listdir(...)` loop itself; what it returns is stated by `Resolver.SearchListingIsFirstVenvChild` |
| `Resolver.SearchListingIsFirstVenvChild` | plugin.py:258-263 | the listing loop returns the interpreter of that first entry, in listing order, and nothing if there is none |
| `Resolver.SubfolderSearch` | plugin.py:252-265 | `venv` first, then `.venv`, then the first other valid entry of the listing; a folder that cannot be listed raises |
| `Resolver.ResolvePythonPathFromVenv` | plugin.py:208-265 | an override is returned at once with no command run; no workspace folder gives nothing; every command runs in the first workspace folder, at most three |
| `Resolver.ResolvedByFirstDecisiveRule` | plugin.py:212-265 | without an override and with a folder, the answer is the first decisive rule's post-processed stripped output (also when that is nothing), or its escaping `OSError`, or, with no decisive rule, the subfolder search |
| `Resolver.OnlyFirstFolderMatters` | plugin.py:212-214 | two folder lists with the same first folder resolve identically |
| `Resolver.ResolvedPathProvenance` | plugin.py:231-265 | without an override, every interpreter reported is a regular file or the stripped output of a command that was run |
| `Resolver.StartupPythonPath` | plugin.py:88 | the path handed to the server is the resolver's non-empty answer, and `python` when the resolver finds nothing or the empty string; an exception from the resolver escapes unchanged; so it is never empty, it is the override when one is set, and it is `python` when there is no workspace folder |
| `Text.LeadingSpaces` | plugin.py:237 | the whitespace run `strip()` removes in front: all whitespace, followed by a non-whitespace character or the end |
| `Text.TrailingSpaces` | plugin.py:237 | the whitespace run `strip()` removes at the back, preceded by a non-whitespace character or the start |
| `Text.Strip` | plugin.py:237 | the output between its leading and trailing whitespace, neither starting nor ending with whitespace |
| `Text.StripKeepsTrimmed` | plugin.py:237 | output with no surrounding whitespace is returned unchanged |
| `Text.StripIdempotent` | plugin.py:237 | stripping the already stripped output changes nothing |
| `Paths.Join` | plugin.py:40 | `os.path.join` of two parts: an absolute second part replaces the first; otherwise the result keeps the first part as its prefix and is at most one character longer than the two together |
| `Paths.JoinAppends` | plugin.py:40 | for a relative second part, the result ends with it, and a `/` is put between the parts exactly when the first is non-empty and does not already end in one |
| `Paths.DirName` | plugin.py:163-164 | `dirname` is a prefix of its argument and as long as it only when the argument is all separators, so the walk's progress test is what ends it |
| `DependencyDirs.MatchLength` | plugin.py:132 | a match of the pattern has length 8 or 9, starts with `python3` in any case and ends in `3` or `8`, with a dot before the digit when it has length 9 |
| `DependencyDirs.MatchLengthFinds` | plugin.py:132 | every occurrence is found: `python3.` and a `3`/`8` give a match of 9, `python3` and a `3`/`8` one of 8 |
| `DependencyDirs.RewriteFrom` | plugin.py:132-134 | the substitution from a position keeps the length of the rest; a character it changes was a `3`/`8` digit, becomes the target digit, and lies at least seven characters past that position |
| `DependencyDirs.RewriteKeepsMatches` | plugin.py:132-134 | every match of `(python3\.?)[38]` in the input is a match of the same length at the same place in the result, so no version is destroyed |
| `DependencyDirs.RewriteChangesOnlyMatchDigits` | plugin.py:132-134 | a character the substitution changes is the last one of a match of the input: the digit after `python3.` in a match of nine, or after `python3` in a match of eight |
| `DependencyDirs.RewriteRetargets` | plugin.py:132-134 | every match left in the substitution's result ends in the target digit |
| `DependencyDirs.RewriteVersion` | plugin.py:133-134 | one entry retargeted at Python 3.8 or 3.3: same length; the only characters changed are the `3`/`8` digits that end a match of the entry, and they become the target; every match of the entry is still a match of the same length; and every `python3[.]` version left names the target |
| `DependencyDirs.RetargetsPythonThreeEight` | plugin.py:133-134 | for Python 3.3, `python3.8` becomes `python3.3` |
| `DependencyDirs.RewriteIdempotent` | plugin.py:132-134 | rewriting an already rewritten entry changes nothing |
| `DependencyDirs.RewriteVersionIdempotent` | plugin.py:133-134 | retargeting twice equals retargeting once |
| `DependencyDirs.RewriteKeepsOtherPaths` | plugin.py:132-134 | an entry without `python3` in any case is left as it is |
| `DependencyDirs.RewriteDependsOnSuffix` | plugin.py:134 | the substitution from a position on depends only on the text from there on |
| `DependencyDirs.IndexOf` | plugin.py:139 | the first occurrence of the removed element |
| `DependencyDirs.RemoveFirst` | plugin.py:139 | `list.remove` fails exactly when the element is absent, and otherwise drops one element |
| `DependencyDirs.RemoveFirstSplits` | plugin.py:139 | what remains is the list before the first occurrence followed by the list after it |
| `DependencyDirs.RemoveFirstDropsOne` | plugin.py:139 | the remainder plus the removed element is the original multiset |
| `DependencyDirs.FilterDirs` | plugin.py:145 | the comprehension keeps only directories, keeps every directory, keeps order, and keeps a leading or trailing directory in place |
| `DependencyDirs.FilterDirsCounts` | plugin.py:145 | each directory is kept as many times as it occurs, anything else not at all |
| `DependencyDirs.Rewritten` | plugin.py:128-134 | `sys.path` entry by entry: each entry keeps its length and its matches, changes only the `3`/`8` digits that end a match, to the target, and every version left in it names the target |
| `DependencyDirs.RewrittenIdempotent` | plugin.py:128-134 | retargeting an already retargeted `sys.path` changes nothing |
| `DependencyDirs.OrderedDirs` | plugin.py:136-143 | fails exactly when the packages path is not among the rewritten entries; else stubs, the entries without the first packages path, then the packages path |
| `DependencyDirs.OrderedDirsPermutes` | plugin.py:136-143 | the reordering loses and duplicates nothing and adds only the stubs path |
| `DependencyDirs.FindPackageDependencyDirs` | plugin.py:127-145 | raises exactly when the packages path is missing from the rewritten `sys.path`; else only directories, in the order of the reordered list, none dropped, with the stubs first and the packages path last whenever they are directories |
| `Scenarios.PipfileRuleComesFirst` | plugin.py:217-238 | with a `Pipfile` whose `pipenv --py` succeeds, the stripped output is the answer and no other command runs |
| `Scenarios.MissingPoetryFallsThrough` | plugin.py:231-256 | a missing `poetry` is logged as not found and, with no `.python-version`, the subfolder search decides |
| `Scenarios.EmptyPostProcessingIsFinal` | plugin.py:238 | when `poetry` names an environment without an interpreter the resolver returns nothing, without looking further |
| `Scenarios.NoMarkerNoCommand` | plugin.py:231-233 | a folder with none of the three marker files runs no command and falls through |
| `Scenarios.EmptyPostProcessingHidesVenv` | plugin.py:219-256 | a folder with `poetry.lock` and a valid `venv` resolves to nothing when `poetry` names an empty environment |
| `Scenarios.DotVenvIsFound` | plugin.py:252-256 | a folder without lock files but with a valid `.venv` resolves to `.venv/bin/python` with no command run |
| `Scenarios.OverrideBeatsVenv` | plugin.py:208-210 | an explicit `python.pythonPath` is used even beside a valid `venv` |
| `Scenarios.WalkIgnoresScriptsOnWindows` | plugin.py:147-161 | on Windows the walk, stopped at a project root, does not see `venv/Scripts/python.exe` |
| `Scenarios.WalkFindsBinOnWindows` | plugin.py:147-159 | on Windows the walk finds `venv/bin/python.exe` |

## Left out

- Plugin lifecycle and server plumbing are not modelled, because they hold no decision logic. This covers `plugin_loaded`, `plugin_unloaded`, `install_or_update`, `minimum_node_version`, `markdown_language_id_to_st_syntax_map` and the `settings.set` calls.
- `on_settings_changed`, `get_dev_environment` and `get_plugin_setting` are settings plumbing. The Python version and the host values (`sys.path`, `sublime.packages_path()`, `package_storage()`) are parameters of `FindPackageDependencyDirs`.
- Warnings are modelled as values naming the marker file and the command. The printed text, including the `shlex.quote` join and the startup `print`, is not.
- Process creation is reduced to the `Runner` oracle. This leaves out `STARTUPINFO` window hiding on Windows and the text decoding of `universal_newlines`.
- Only POSIX path syntax is modelled. On Windows, `os.path` is ntpath (backslashes, drive letters), and the model keeps only the platform's effect on the interpreter names.
- `USER_HOME` is a parameter. `expanduser` and `normpath` are not modelled, and neither is path normalisation elsewhere.
- Symbolic links are not modelled, so `lexists` and `exists` coincide.
- The `lru_cache` is modelled against one fixed filesystem snapshot. Stale answers after the filesystem changes and thread safety are not modelled.
- `python.pythonPath` is modelled as an optional string. A non-string setting value is not modelled.
- Case-insensitive matching is modelled as ASCII upper/lower case. No other character case-folds to a letter of `python` in Python's `re`, so nothing is lost.
- Exceptions other than `FileNotFoundError` and `CalledProcessError` from `check_output` are one `OtherOsError` that escapes. Failures of `isfile` and `exists` cannot happen in the model.
- `FileSystem.ListDir` fails only for a path that is not a directory. `os.listdir` can also raise `PermissionError` for an existing directory that cannot be read; the snapshot has no permissions, so `Resolver.SubfolderSearch` never raises for an existing workspace folder.

=== FILE: config.dfy ===
/** The part of the client settings the resolvers read. */
module Config {
  import opened Wrappers

  /** `settings.get("python.pythonPath")`: `None` when the key is unset. */
  datatype Settings = Settings(pythonPath: Option<string>)

  /** Python truthiness of the setting: present and not the empty string. */
  predicate HasOverride(s: Settings) {
    s.pythonPath.Some? && s.pythonPath.value != ""
  }
}

=== FILE: dependency_dirs.dfy ===
/** `find_package_dependency_dirs`: the extra analysis search paths handed to
    the server when the development environment is Sublime Text. */
module DependencyDirs {
  import opened Wrappers
  import opened Paths
  import opened FileSystem
  import opened Sequences

  // ---------------------------------------------------------------------------
  // The case-insensitive substitution that puts the target digit after every
  // `python3` or `python3.` followed by a 3 or an 8
  // ---------------------------------------------------------------------------

  /** ASCII lower-casing. Under Python's case-insensitive matching the letters
      of `python` have no case variants besides their ASCII upper case. */
  function Lower(c: char): char {
    if 'A' <= c <= 'Z' then (c as int + 32) as char else c
  }

  /** `s[i..]` starts with `python3`, ignoring case. */
  predicate PythonThreeAt(s: string, i: nat) {
    && i + 7 <= |s|
    && Lower(s[i]) == 'p' && Lower(s[i + 1]) == 'y' && Lower(s[i + 2]) == 't'
    && Lower(s[i + 3]) == 'h' && Lower(s[i + 4]) == 'o' && Lower(s[i + 5]) == 'n'
    && s[i + 6] == '3'
  }

  /** The character class `[38]`. */
  predicate VersionDigit(c: char) {
    c == '3' || c == '8'
  }

  /** The length of the match of `(python3\.?)[38]` starting at `i`, 0 if none.
      The optional dot is tried first, as the greedy `\.?` does. */
  function MatchLength(s: string, i: nat): (m: nat)
    ensures m == 0 || m == 8 || m == 9
    ensures m > 0 ==> i + m <= |s| && PythonThreeAt(s, i) && VersionDigit(s[i + m - 1])
    ensures m == 9 ==> s[i + 7] == '.'
  {
    if !PythonThreeAt(s, i) then 0
    else if i + 8 < |s| && s[i + 7] == '.' && VersionDigit(s[i + 8]) then 9
    else if i + 7 < |s| && VersionDigit(s[i + 7]) then 8
    else 0
  }

  /** Every occurrence of the pattern is found: `python3.` and a `[38]` digit
      give a match of 9, `python3` and a `[38]` digit one of 8. */
  lemma MatchLengthFinds(s: string, i: nat)
    requires PythonThreeAt(s, i)
    ensures i + 8 < |s| && s[i + 7] == '.' && VersionDigit(s[i + 8]) ==> MatchLength(s, i) == 9
    ensures i + 7 < |s| && VersionDigit(s[i + 7]) ==> MatchLength(s, i) == 8
  {
  }

  /** `re.sub` from position `i` on: matches are replaced left to right without
      overlapping; a replacement keeps group 1 and puts `digit` for the `[38]`.
      Only `[38]` digits change, to `digit`, and none of the first seven
      characters does (a match's digit comes after `python3`). */
  function RewriteFrom(s: string, digit: char, i: nat): (r: string)
    requires i <= |s|
    decreases |s| - i
    ensures |r| == |s| - i
    ensures forall k :: 0 <= k < |r| && r[k] != s[i + k] ==> 7 <= k && VersionDigit(s[i + k]) && r[k] == digit
  {
    if i == |s| then []
    else
      var m := MatchLength(s, i);
      if m == 0 then [s[i]] + RewriteFrom(s, digit, i + 1)
      else s[i..i + m - 1] + [digit] + RewriteFrom(s, digit, i + m)
  }

  /** The digit the replacement writes: `8` for Python 3.8, `3` otherwise. */
  function TargetDigit(pyVer: (int, int)): (d: char)
    ensures VersionDigit(d)
  {
    if pyVer == (3, 8) then '8' else '3'
  }


  /** `t[j..]` and `s[i..]` have the same length and agree on the first eight
      characters. */
  predicate SameWindow(s: string, i: nat, t: string, j: nat) {
    && i <= |s| && j <= |t| && |s| - i == |t| - j
    && forall k :: i <= k < i + 8 && k < |s| ==> t[j + (k - i)] == s[k]
  }

  /** A match only looks at the nine characters from its start, and at the
      ninth only through `[38]`. */
  lemma MatchLengthAgrees(s: string, i: nat, t: string, j: nat)
    requires SameWindow(s, i, t, j)
    requires i + 8 < |s| ==> (VersionDigit(t[j + 8]) <==> VersionDigit(s[i + 8]))
    ensures MatchLength(t, j) == MatchLength(s, i)
  {
    if i + 7 <= |s| {
      assert s[i] == t[j] && s[i + 1] == t[j + 1] && s[i + 2] == t[j + 2] && s[i + 3] == t[j + 3];
      assert s[i + 4] == t[j + 4] && s[i + 5] == t[j + 5] && s[i + 6] == t[j + 6];
      if i + 7 < |s| {
        assert s[i + 7] == t[j + 7];
      }
    }
  }

  /** Equal suffixes match alike at their start. */
  lemma SameSuffixSameMatch(s: string, i: nat, t: string, j: nat)
    requires i <= |s| && j <= |t| && s[i..] == t[j..]
    ensures MatchLength(s, i) == MatchLength(t, j)
  {
    forall k | i <= k < i + 8 && k < |s| ensures t[j + (k - i)] == s[k] {
      assert s[i..][k - i] == t[j..][k - i];
    }
    if i + 8 < |s| {
      assert s[i..][8] == t[j..][8];
    }
    MatchLengthAgrees(s, i, t, j);
  }

  /** The rewrite of a suffix depends on that suffix alone. */
  lemma {:induction false} RewriteDependsOnSuffix(s: string, i: nat, t: string, j: nat, digit: char)
    requires i <= |s| && j <= |t| && s[i..] == t[j..]
    decreases |s| - i
    ensures RewriteFrom(s, digit, i) == RewriteFrom(t, digit, j)
  {
    if i < |s| {
      SameSuffixSameMatch(s, i, t, j);
      var m := MatchLength(s, i);
      var n := if m == 0 then 1 else m;
      assert s[i + n..] == t[j + n..] by {
        assert s[i + n..] == s[i..][n..];
        assert t[j + n..] == t[j..][n..];
      }
      RewriteDependsOnSuffix(s, i + n, t, j + n, digit);
      if m > 0 {
        assert s[i..i + m - 1] == t[j..j + m - 1] by {
          assert s[i..i + m - 1] == s[i..][..m - 1];
          assert t[j..j + m - 1] == t[j..][..m - 1];
        }
      }
    }
  }

  /** Where no match starts, the rewritten text has none either: only a
      ninth character can change, and it stays in `[38]`. */
  lemma RewriteKeepsNoMatch(s: string, digit: char, i: nat)
    requires i < |s| && VersionDigit(digit) && MatchLength(s, i) == 0
    ensures MatchLength(RewriteFrom(s, digit, i), 0) == 0
  {
    var rest := RewriteFrom(s, digit, i + 1);
    var u := [s[i]] + rest;
    assert RewriteFrom(s, digit, i) == u;
    forall k | i <= k < i + 8 && k < |s| ensures u[0 + (k - i)] == s[k] {
      if k > i {
        assert u[k - i] == rest[k - (i + 1)];
      }
    }
    if i + 8 < |s| {
      assert u[8] == rest[7];
    }
    MatchLengthAgrees(s, i, u, 0);
  }

  /** Where a match starts, the rewritten text has one of the same length. */
  lemma RewriteKeepsMatch(s: string, digit: char, i: nat)
    requires i < |s| && VersionDigit(digit) && MatchLength(s, i) > 0
    ensures MatchLength(RewriteFrom(s, digit, i), 0) == MatchLength(s, i)
  {
    var m := MatchLength(s, i);
    var u := RewriteFrom(s, digit, i);
    assert u[m - 1] == digit;
    forall k | 0 <= k < m - 1 ensures u[k] == s[i + k] {
    }
  }

  /** Retargeting is idempotent: a path already aimed at the target version
      is left as it is. */
  lemma {:induction false} RewriteIdempotent(s: string, digit: char, i: nat)
    requires i <= |s| && VersionDigit(digit)
    decreases |s| - i
    ensures var u := RewriteFrom(s, digit, i); RewriteFrom(u, digit, 0) == u
  {
    var u := RewriteFrom(s, digit, i);
    if i < |s| {
      var m := MatchLength(s, i);
      var n := if m == 0 then 1 else m;
      var rest := RewriteFrom(s, digit, i + n);
      if m == 0 {
        RewriteKeepsNoMatch(s, digit, i);
      } else {
        RewriteKeepsMatch(s, digit, i);
      }
      assert u[n..] == rest;
      RewriteIdempotent(s, digit, i + n);
      RewriteDependsOnSuffix(u, n, rest, 0, digit);
      if m > 0 {
        assert u[0..m - 1] == s[i..i + m - 1];
      }
    }
  }

  /** Every match of the pattern in `u` ends in `digit`: `u` is aimed at that version. */
  predicate MatchesEndIn(u: string, digit: char) {
    forall j :: 0 <= j < |u| && MatchLength(u, j) > 0 ==> u[j + MatchLength(u, j) - 1] == digit
  }

  /** Matches in the first `n` positions end in `digit` and so do all of
      `u[n..]`'s, hence all of `u`'s. */
  lemma MatchesEndInShift(u: string, n: nat, digit: char)
    requires n <= |u| && MatchesEndIn(u[n..], digit)
    requires forall j :: 0 <= j < n && MatchLength(u, j) > 0 ==> u[j + MatchLength(u, j) - 1] == digit
    ensures MatchesEndIn(u, digit)
  {
    forall j | n <= j < |u| && MatchLength(u, j) > 0 ensures u[j + MatchLength(u, j) - 1] == digit {
      MatchAtShift(u, n, j);
    }
  }

  /** A match in `u` from `j` is the match in `u[n..]` from `j - n`. */
  lemma MatchAtShift(u: string, n: nat, j: nat)
    requires n <= j < |u|
    ensures MatchLength(u, j) == MatchLength(u[n..], j - n)
    ensures MatchLength(u, j) > 0 ==> u[j + MatchLength(u, j) - 1] == u[n..][j - n + MatchLength(u, j) - 1]
  {
    assert u[j..] == u[n..][j - n..];
    SameSuffixSameMatch(u, j, u[n..], j - n);
  }

  /** No match starts strictly inside a replaced match: none of its later
      characters lower-cases to `p`. */
  lemma NoMatchInsideReplacement(s: string, digit: char, i: nat, j: nat)
    requires i < |s| && VersionDigit(digit) && 0 < j < MatchLength(s, i)
    ensures MatchLength(RewriteFrom(s, digit, i), j) == 0
  {
    var m := MatchLength(s, i);
    var u := RewriteFrom(s, digit, i);
    assert u[m - 1] == digit;
    if j < m - 1 {
      assert u[j] == s[i + j];
    }
  }

  /** Where no match starts, a retargeted rest keeps the whole rewrite retargeted. */
  lemma RetargetAfterNoMatch(s: string, digit: char, i: nat)
    requires i < |s| && VersionDigit(digit) && MatchLength(s, i) == 0
    requires MatchesEndIn(RewriteFrom(s, digit, i + 1), digit)
    ensures MatchesEndIn(RewriteFrom(s, digit, i), digit)
  {
    var u := RewriteFrom(s, digit, i);
    assert u[1..] == RewriteFrom(s, digit, i + 1);
    RewriteKeepsNoMatch(s, digit, i);
    MatchesEndInShift(u, 1, digit);
  }

  /** Where a match starts, its replacement ends in `digit` and no other
      match starts inside it. */
  lemma RetargetAfterMatch(s: string, digit: char, i: nat)
    requires i < |s| && VersionDigit(digit) && MatchLength(s, i) > 0
    requires MatchesEndIn(RewriteFrom(s, digit, i + MatchLength(s, i)), digit)
    ensures MatchesEndIn(RewriteFrom(s, digit, i), digit)
  {
    var u := RewriteFrom(s, digit, i);
    var m := MatchLength(s, i);
    assert u[m..] == RewriteFrom(s, digit, i + m);
    RewriteKeepsMatch(s, digit, i);
    assert u[m - 1] == digit;
    forall j | 0 < j < m ensures MatchLength(u, j) == 0 {
      NoMatchInsideReplacement(s, digit, i, j);
    }
    MatchesEndInShift(u, m, digit);
  }

  /** The rewrite retargets: every match left in its result ends in the
      target digit. */
  lemma {:induction false} RewriteRetargets(s: string, digit: char, i: nat)
    requires i <= |s| && VersionDigit(digit)
    decreases |s| - i
    ensures MatchesEndIn(RewriteFrom(s, digit, i), digit)
  {
    if i < |s| {
      var m := MatchLength(s, i);
      if m == 0 {
        RewriteRetargets(s, digit, i + 1);
        RetargetAfterNoMatch(s, digit, i);
      } else {
        RewriteRetargets(s, digit, i + m);
        RetargetAfterMatch(s, digit, i);
      }
    }
  }

  /** Every match of `s` from `i` on is still there in `u`, with the same
      length, at the same place relative to `i`. */
  predicate KeepsMatches(s: string, u: string, i: nat) {
    forall j :: i <= j < |s| && MatchLength(s, j) > 0 ==> MatchLength(u, j - i) == MatchLength(s, j)
  }

  /** `u` is `s[i..]` with changes only at the last character of a match of
      `s`: the digit after `python3.` or after `python3`. */
  predicate ChangesOnlyMatchDigits(s: string, u: string, i: nat) {
    && |u| == |s| - i
    && forall k :: i <= k < |s| && u[k - i] != s[k] ==>
         (i + 8 <= k && MatchLength(s, k - 8) == 9) || (i + 7 <= k && MatchLength(s, k - 7) == 8)
  }

  /** No match starts strictly inside another: none of a match's later
      characters lower-cases to `p`. */
  lemma NoMatchInsideMatch(s: string, i: nat, j: nat)
    requires i < j < i + MatchLength(s, i)
    ensures MatchLength(s, j) == 0
  {
  }

  /** Matches kept in the first `n` positions and by `u[n..]` are kept by `u`. */
  lemma KeepsShift(s: string, u: string, i: nat, n: nat)
    requires n <= |u| && KeepsMatches(s, u[n..], i + n)
    requires forall j :: i <= j < i + n && MatchLength(s, j) > 0 ==> MatchLength(u, j - i) == MatchLength(s, j)
    ensures KeepsMatches(s, u, i)
  {
    forall j | i + n <= j < |s| && MatchLength(s, j) > 0 ensures MatchLength(u, j - i) == MatchLength(s, j) {
      MatchAtShift(u, n, j - i);
    }
  }

  /** Where `s` has no match at `i`, matches kept by `u[1..]` are kept by `u`. */
  lemma KeepsShiftOne(s: string, u: string, i: nat)
    requires 1 <= |u| && MatchLength(s, i) == 0 && KeepsMatches(s, u[1..], i + 1)
    ensures KeepsMatches(s, u, i)
  {
    KeepsShift(s, u, i, 1);
  }

  /** Where no match starts, matches kept by the rest are kept by the whole. */
  lemma KeepsAfterNoMatch(s: string, digit: char, i: nat)
    requires i < |s| && MatchLength(s, i) == 0
    requires KeepsMatches(s, RewriteFrom(s, digit, i + 1), i + 1)
    ensures KeepsMatches(s, RewriteFrom(s, digit, i), i)
  {
    var u := RewriteFrom(s, digit, i);
    assert u[1..] == RewriteFrom(s, digit, i + 1);
    KeepsShiftOne(s, u, i);
  }

  /** Where a match starts, it is kept, no other starts inside it, and matches
      kept by the rest are kept by the whole. */
  lemma KeepsAfterMatch(s: string, digit: char, i: nat)
    requires i < |s| && VersionDigit(digit) && MatchLength(s, i) > 0
    requires KeepsMatches(s, RewriteFrom(s, digit, i + MatchLength(s, i)), i + MatchLength(s, i))
    ensures KeepsMatches(s, RewriteFrom(s, digit, i), i)
  {
    var u := RewriteFrom(s, digit, i);
    var m := MatchLength(s, i);
    assert u[m..] == RewriteFrom(s, digit, i + m);
    RewriteKeepsMatch(s, digit, i);
    forall j | i < j < i + m ensures MatchLength(s, j) == 0 {
      NoMatchInsideMatch(s, i, j);
    }
    KeepsShift(s, u, i, m);
  }

  /** The rewrite keeps every match: each `python3[.][38]` of the input is a
      match of the same length, at the same place, in the result. */
  lemma {:induction false} RewriteKeepsMatches(s: string, digit: char, i: nat)
    requires i <= |s| && VersionDigit(digit)
    decreases |s| - i
    ensures KeepsMatches(s, RewriteFrom(s, digit, i), i)
  {
    if i < |s| {
      var m := MatchLength(s, i);
      if m == 0 {
        RewriteKeepsMatches(s, digit, i + 1);
        KeepsAfterNoMatch(s, digit, i);
      } else {
        RewriteKeepsMatches(s, digit, i + m);
        KeepsAfterMatch(s, digit, i);
      }
    }
  }

  /** Changes in the first `n` positions and in `u[n..]` that are all match
      digits make `u` change only match digits. */
  lemma ChangesShift(s: string, u: string, i: nat, n: nat)
    requires |u| == |s| - i && n <= |u| && ChangesOnlyMatchDigits(s, u[n..], i + n)
    requires forall k :: i <= k < i + n && u[k - i] != s[k] ==>
               (i + 8 <= k && MatchLength(s, k - 8) == 9) || (i + 7 <= k && MatchLength(s, k - 7) == 8)
    ensures ChangesOnlyMatchDigits(s, u, i)
  {
    forall k | i + n <= k < |s| && u[k - i] != s[k]
      ensures (i + 8 <= k && MatchLength(s, k - 8) == 9) || (i + 7 <= k && MatchLength(s, k - 7) == 8)
    {
      assert u[k - i] == u[n..][k - (i + n)];
    }
  }

  /** A copied first character and a `u[1..]` that changes only match
      digits make `u` change only match digits. */
  lemma ChangesShiftOne(s: string, u: string, i: nat)
    requires |u| == |s| - i && 1 <= |u| && u[0] == s[i] && ChangesOnlyMatchDigits(s, u[1..], i + 1)
    ensures ChangesOnlyMatchDigits(s, u, i)
  {
    ChangesShift(s, u, i, 1);
  }

  /** Where no match starts, the first character is copied and the rest
      changes only match digits. */
  lemma ChangesAfterNoMatch(s: string, digit: char, i: nat)
    requires i < |s| && MatchLength(s, i) == 0
    requires ChangesOnlyMatchDigits(s, RewriteFrom(s, digit, i + 1), i + 1)
    ensures ChangesOnlyMatchDigits(s, RewriteFrom(s, digit, i), i)
  {
    var u := RewriteFrom(s, digit, i);
    assert u[1..] == RewriteFrom(s, digit, i + 1);
    assert u[0] == s[i];
    ChangesShiftOne(s, u, i);
  }

  /** Where a match starts, only its last character changes and the rest
      changes only match digits. */
  lemma ChangesAfterMatch(s: string, digit: char, i: nat)
    requires i < |s| && MatchLength(s, i) > 0
    requires ChangesOnlyMatchDigits(s, RewriteFrom(s, digit, i + MatchLength(s, i)), i + MatchLength(s, i))
    ensures ChangesOnlyMatchDigits(s, RewriteFrom(s, digit, i), i)
  {
    var u := RewriteFrom(s, digit, i);
    var m := MatchLength(s, i);
    assert u[m..] == RewriteFrom(s, digit, i + m);
    forall k | i <= k < i + m - 1 ensures u[k - i] == s[k] {
    }
    ChangesShift(s, u, i, m);
  }

  /** The rewrite changes only the `[38]` digit that ends a match of the input. */
  lemma {:induction false} RewriteChangesOnlyMatchDigits(s: string, digit: char, i: nat)
    requires i <= |s|
    decreases |s| - i
    ensures ChangesOnlyMatchDigits(s, RewriteFrom(s, digit, i), i)
  {
    if i < |s| {
      var m := MatchLength(s, i);
      if m == 0 {
        RewriteChangesOnlyMatchDigits(s, digit, i + 1);
        ChangesAfterNoMatch(s, digit, i);
      } else {
        RewriteChangesOnlyMatchDigits(s, digit, i + m);
        ChangesAfterMatch(s, digit, i);
      }
    }
  }

  /** One search path retargeted at the server's Python version: same length,
      only `3`/`8` digits change, to the target digit, and only the digit that
      ends a match of the path; every match of the path is still a match of
      the same length, and every `python3[.]` version left names the target. */
  function RewriteVersion(path: Path, pyVer: (int, int)): (r: Path)
    ensures |r| == |path|
    ensures forall k :: 0 <= k < |r| ==> r[k] == path[k] || (VersionDigit(path[k]) && r[k] == TargetDigit(pyVer))
    ensures ChangesOnlyMatchDigits(path, r, 0)
    ensures KeepsMatches(path, r, 0)
    ensures MatchesEndIn(r, TargetDigit(pyVer))
  {
    RewriteRetargets(path, TargetDigit(pyVer), 0);
    RewriteKeepsMatches(path, TargetDigit(pyVer), 0);
    RewriteChangesOnlyMatchDigits(path, TargetDigit(pyVer), 0);
    RewriteFrom(path, TargetDigit(pyVer), 0)
  }

  /** `RewriteVersion` is idempotent. */
  lemma RewriteVersionIdempotent(path: Path, pyVer: (int, int))
    ensures RewriteVersion(RewriteVersion(path, pyVer), pyVer) == RewriteVersion(path, pyVer)
  {
    RewriteIdempotent(path, TargetDigit(pyVer), 0);
  }

  /** For Python 3.3, `python3.8` is retargeted to `python3.3`. */
  lemma RetargetsPythonThreeEight()
    ensures RewriteVersion("python3.8", (3, 3)) == "python3.3"
  {
    var s := "python3.8";
    assert MatchLength(s, 0) == 9;
    assert RewriteFrom(s, '3', 9) == [];
    assert s[0..8] == "python3.";
  }

  /** A path with no `python3` in it, in any case, is left as it is. */
  lemma {:induction false} RewriteKeepsOtherPaths(s: string, digit: char, i: nat)
    requires i <= |s|
    requires forall j :: i <= j < |s| ==> !PythonThreeAt(s, j)
    decreases |s| - i
    ensures RewriteFrom(s, digit, i) == s[i..]
  {
    if i < |s| {
      RewriteKeepsOtherPaths(s, digit, i + 1);
      assert s[i..] == [s[i]] + s[i + 1..];
    }
  }

  // ---------------------------------------------------------------------------
  // The list operations
  // ---------------------------------------------------------------------------

  /** The index of the first occurrence of `x`. */
  function IndexOf<T(==)>(xs: seq<T>, x: T): (i: nat)
    requires x in xs
    ensures i < |xs| && xs[i] == x && x !in xs[..i]
  {
    if xs[0] == x then 0
    else
      assert xs[1..][..IndexOf(xs[1..], x)] == xs[1..IndexOf(xs[1..], x) + 1];
      1 + IndexOf(xs[1..], x)
  }

  /** `list.remove(x)`: the list without its first `x`; `None` where Python
      raises `ValueError` because there is no `x`. */
  function RemoveFirst<T(==)>(xs: seq<T>, x: T): (r: Option<seq<T>>)
    ensures r.None? <==> x !in xs
    ensures r.Some? ==> |r.value| == |xs| - 1
  {
    if xs == [] then None
    else if xs[0] == x then Some(xs[1..])
    else
      match RemoveFirst(xs[1..], x)
      case None => None
      case Some(rest) => Some([xs[0]] + rest)
  }

  /** What `list.remove(x)` leaves: everything before the first `x`, then
      everything after it, in order. */
  lemma {:induction false} RemoveFirstSplits<T>(xs: seq<T>, x: T)
    requires x in xs
    ensures var i := IndexOf(xs, x); RemoveFirst(xs, x) == Some(xs[..i] + xs[i + 1..])
  {
    if xs[0] != x {
      var tail := xs[1..];
      RemoveFirstSplits(tail, x);
      var j := IndexOf(tail, x);
      assert xs[..j + 1] == [xs[0]] + tail[..j];
      assert xs[j + 2..] == tail[j + 1..];
      assert [xs[0]] + (tail[..j] + tail[j + 1..]) == xs[..j + 1] + xs[j + 2..];
    } else {
      assert xs[..0] + xs[1..] == xs[1..];
    }
  }

  /** `list.remove` moves nothing but the one occurrence it drops. */
  lemma RemoveFirstDropsOne<T>(xs: seq<T>, x: T)
    requires x in xs
    ensures multiset(RemoveFirst(xs, x).value) + multiset{x} == multiset(xs)
  {
    RemoveFirstSplits(xs, x);
    var i := IndexOf(xs, x);
    assert xs == xs[..i] + [x] + xs[i + 1..];
  }

  /** The comprehension that keeps, in order, the entries that are directories. */
  function FilterDirs(fs: Fs, paths: seq<Path>): (r: seq<Path>)
    ensures forall x :: x in r ==> IsDir(fs, x)
    ensures forall x :: x in paths && IsDir(fs, x) ==> x in r
    ensures IsSubsequence(r, paths)
    ensures paths != [] && IsDir(fs, paths[0]) ==> r != [] && r[0] == paths[0]
    ensures paths != [] && IsDir(fs, paths[|paths| - 1]) ==> r != [] && r[|r| - 1] == paths[|paths| - 1]
  {
    if paths == [] then []
    else
      var rest := FilterDirs(fs, paths[1..]);
      assert paths == [paths[0]] + paths[1..];
      if IsDir(fs, paths[0]) then
        assert ([paths[0]] + rest)[1..] == rest;
        [paths[0]] + rest
      else rest
  }

  /** The filter keeps every occurrence of a directory and no occurrence of
      anything else; with `IsSubsequence` this fixes the result. */
  lemma {:induction false} FilterDirsCounts(fs: Fs, paths: seq<Path>, x: Path)
    ensures multiset(FilterDirs(fs, paths))[x] == if IsDir(fs, x) then multiset(paths)[x] else 0
  {
    if paths != [] {
      FilterDirsCounts(fs, paths[1..], x);
      assert paths == [paths[0]] + paths[1..];
      assert multiset(paths) == multiset{paths[0]} + multiset(paths[1..]);
    }
  }

  // ---------------------------------------------------------------------------
  // find_package_dependency_dirs
  // ---------------------------------------------------------------------------

  /** The `ValueError` of `dep_dirs.remove(packages_path)`. */
  datatype DependencyError = PackagesPathMissing(packagesPath: Path)

  /** The Sublime Text type stubs: `resources/typings/sublime_text` under the package storage. */
  function StubsPath(storage: Path): Path {
    Join(Join(Join(storage, "resources"), "typings"), "sublime_text")
  }

  /** `sys.path` with each entry retargeted at the server's Python version:
      entry by entry, the same length, only the `3`/`8` digits that end a match
      changed, to the target, every match kept, and every `python3[.]` version
      left names the target. */
  function Rewritten(sysPath: seq<Path>, pyVer: (int, int)): (r: seq<Path>)
    ensures |r| == |sysPath|
    ensures forall i :: 0 <= i < |r| ==> |r[i]| == |sysPath[i]| && MatchesEndIn(r[i], TargetDigit(pyVer))
    ensures forall i :: 0 <= i < |r| ==> ChangesOnlyMatchDigits(sysPath[i], r[i], 0) && KeepsMatches(sysPath[i], r[i], 0)
    ensures forall i, k :: 0 <= i < |r| && 0 <= k < |r[i]| ==>
              r[i][k] == sysPath[i][k] || (VersionDigit(sysPath[i][k]) && r[i][k] == TargetDigit(pyVer))
  {
    seq(|sysPath|, i requires 0 <= i < |sysPath| => RewriteVersion(sysPath[i], pyVer))
  }

  /** Retargeting an already retargeted search path changes nothing. */
  lemma RewrittenIdempotent(sysPath: seq<Path>, pyVer: (int, int))
    ensures Rewritten(Rewritten(sysPath, pyVer), pyVer) == Rewritten(sysPath, pyVer)
  {
    var r := Rewritten(sysPath, pyVer);
    forall i | 0 <= i < |r| ensures Rewritten(r, pyVer)[i] == r[i] {
      RewriteVersionIdempotent(sysPath[i], pyVer);
    }
  }

  /** The list before the directory filter: the stubs path first, then the
      rewritten search path without its first packages path, then the packages
      path. */
  function OrderedDirs(dirs: seq<Path>, packagesPath: Path, stubs: Path): (r: Option<seq<Path>>)
    ensures r.None? <==> packagesPath !in dirs
    ensures r.Some? ==>
              var i := IndexOf(dirs, packagesPath);
              r.value == [stubs] + dirs[..i] + dirs[i + 1..] + [packagesPath]
  {
    match RemoveFirst(dirs, packagesPath)
    case None => None
    case Some(others) =>
      RemoveFirstSplits(dirs, packagesPath);
      Some([stubs] + others + [packagesPath])
  }

  /** Moving the packages path and adding the stubs loses and duplicates nothing. */
  lemma OrderedDirsPermutes(dirs: seq<Path>, packagesPath: Path, stubs: Path)
    requires packagesPath in dirs
    ensures multiset(OrderedDirs(dirs, packagesPath, stubs).value) == multiset(dirs) + multiset{stubs}
  {
    var others := RemoveFirst(dirs, packagesPath).value;
    RemoveFirstDropsOne(dirs, packagesPath);
    assert OrderedDirs(dirs, packagesPath, stubs).value == [stubs] + others + [packagesPath];
  }

  /** `find_package_dependency_dirs(py_ver)`: `sys.path`, the packages
      directory and the package storage are host values passed in. The result
      holds only directories, keeps the order of the list before the filter and
      drops no directory of it; the stubs lead and the packages path closes it
      whenever they are directories. */
  function FindPackageDependencyDirs(sysPath: seq<Path>, pyVer: (int, int), packagesPath: Path, storage: Path, fs: Fs)
    : (r: Result<seq<Path>, DependencyError>)
    ensures r.Failure? <==> packagesPath !in Rewritten(sysPath, pyVer)
    ensures r.Success? ==> forall x :: x in r.value ==> IsDir(fs, x)
    ensures r.Success? ==>
              var ordered := OrderedDirs(Rewritten(sysPath, pyVer), packagesPath, StubsPath(storage)).value;
              IsSubsequence(r.value, ordered) && forall x :: x in ordered && IsDir(fs, x) ==> x in r.value
    ensures r.Success? && IsDir(fs, StubsPath(storage)) ==> r.value != [] && r.value[0] == StubsPath(storage)
    ensures r.Success? && IsDir(fs, packagesPath) ==> r.value != [] && r.value[|r.value| - 1] == packagesPath
  {
    match OrderedDirs(Rewritten(sysPath, pyVer), packagesPath, StubsPath(storage))
    case None => Failure(PackagesPathMissing(packagesPath))
    case Some(ordered) => Success(FilterDirs(fs, ordered))
  }
}

=== FILE: filesystem.dfy ===
/** The host's filesystem and platform, as the oracle the resolver consults. */
module FileSystem {
  import opened Wrappers
  import opened Paths

  /** A snapshot of the filesystem: the regular files, and the directories with
      their entries in the order `os.listdir` returns them. */
  datatype Fs = Fs(files: set<Path>, dirs: map<Path, seq<string>>)

  /** `os.path.exists` (and `os.path.lexists`: symbolic links are not modelled). */
  predicate Exists(fs: Fs, p: Path) {
    p in fs.files || p in fs.dirs
  }

  /** `os.path.isfile` */
  predicate IsFile(fs: Fs, p: Path) {
    p in fs.files
  }

  /** `os.path.isdir` */
  predicate IsDir(fs: Fs, p: Path) {
    p in fs.dirs
  }

  /** `os.listdir`: the entries of a directory; `None` where Python raises
      because the path is missing or not a directory. Every directory of the
      snapshot is readable, so listing one never fails. */
  function ListDir(fs: Fs, p: Path): (r: Option<seq<string>>)
    ensures r.Some? <==> IsDir(fs, p)
    ensures r.Some? ==> r.value == fs.dirs[p]
  {
    if p in fs.dirs then Some(fs.dirs[p]) else None
  }

  /** `sublime.platform()`, reduced to the one distinction the code makes. */
  datatype Platform = Posix | Windows

  /** The host values the code reads: the filesystem, `USER_HOME` and the platform. */
  datatype Env = Env(fs: Fs, home: Path, platform: Platform)
}

=== FILE: paths.dfy ===
/** POSIX path syntax, as Python's `os.path` (posixpath) implements it. */
module Paths {

  type Path = string

  const Sep: char := '/'

  predicate IsAbsolute(s: string) {
    |s| > 0 && s[0] == Sep
  }

  /** True when every character of `s` is a separator (also for the empty string). */
  predicate AllSep(s: string) {
    forall k :: 0 <= k < |s| ==> s[k] == Sep
  }

  /** `os.path.join(a, b)` for one component: an absolute `b` replaces `a`;
      otherwise `b` is appended, with one separator in between unless `a` is
      empty or already ends in one. */
  function Join(a: Path, b: string): (r: Path)
    ensures IsAbsolute(b) ==> r == b
    ensures !IsAbsolute(b) ==> |a| + |b| <= |r| <= |a| + |b| + 1
    ensures !IsAbsolute(b) ==> r[..|a|] == a
  {
    if IsAbsolute(b) then b
    else if a == [] || a[|a| - 1] == Sep then a + b
    else a + [Sep] + b
  }

  /** Joining a relative `b` puts `b` after `a`, with a separator between them
      exactly when `a` is non-empty and does not already end in one. */
  lemma JoinAppends(a: Path, b: string)
    requires !IsAbsolute(b)
    ensures var r := Join(a, b); r[|r| - |b|..] == b
    ensures var r := Join(a, b); |r| == |a| + |b| + 1 <==> a != [] && a[|a| - 1] != Sep
    ensures var r := Join(a, b); |r| == |a| + |b| + 1 ==> r[|a|] == Sep
  {
  }

  /** The index just past the last separator, 0 if none. */
  function AfterLastSep(p: Path): (i: nat)
    ensures i <= |p|
    ensures i > 0 ==> p[i - 1] == Sep
    ensures forall k :: i <= k < |p| ==> p[k] != Sep
  {
    if p == [] then 0
    else if p[|p| - 1] == Sep then |p|
    else AfterLastSep(p[..|p| - 1])
  }

  /** The path without its trailing separators. */
  function RStripSep(s: Path): (r: Path)
    ensures |r| <= |s| && r == s[..|r|]
    ensures r == [] || r[|r| - 1] != Sep
    ensures AllSep(s[|r|..])
  {
    if s != [] && s[|s| - 1] == Sep then RStripSep(s[..|s| - 1]) else s
  }

  /** `os.path.dirname(p)`: everything before the last separator, with trailing
      separators removed unless the head consists of separators only. */
  function DirName(p: Path): (d: Path)
    ensures |d| <= |p| && d == p[..|d|]
    ensures |d| == |p| <==> AllSep(p)
  {
    var head := p[..AfterLastSep(p)];
    if head != [] && !AllSep(head) then
      RStripSep(head)
    else head
  }
}

=== FILE: project_root.dfy ===
/** The project-root detector: the boundary of the upward venv search. */
module ProjectRoot {
  import opened Paths
  import opened FileSystem

  /** `ROOT_FILES`: names whose presence marks a project root. */
  const RootFiles: set<string> := {
    ".git",
    "poetry.lock",
    "setup.py",
    "dev-requirements.txt",
    "requirements-dev.txt",
    "requirements.txt",
    "test-requirements.txt"
  }

  /** A directory is a project root when it is the home directory or one of
      the root markers exists directly under it. */
  predicate IsProjectRoot(env: Env, root: Path) {
    root == env.home || exists name :: name in RootFiles && Exists(env.fs, Join(root, name))
  }

  /** `is_project_root`: the home check first, then the markers in the
      (unspecified) iteration order of the set, stopping at the first hit. */
  method CheckProjectRoot(env: Env, root: Path) returns (b: bool)
    ensures b <==> root == env.home || exists name :: name in RootFiles && Exists(env.fs, Join(root, name))
  {
    if root == env.home {
      return true;
    }
    var pending := RootFiles;
    while pending != {}
      invariant pending <= RootFiles
      invariant forall name :: name in RootFiles - pending ==> !Exists(env.fs, Join(root, name))
      decreases pending
    {
      var name :| name in pending;
      if Exists(env.fs, Join(root, name)) {
        return true;
      }
      pending := pending - {name};
    }
    return false;
  }

  /** The default bound of `lru_cache`: at most 128 memoised answers. */
  const CacheSize: nat := 128

  /** The `lru_cache` in front of `is_project_root`: memoised answers, from
      the least to the most recently used. */
  type RootCache = seq<(Path, bool)>

  function CachedPaths(cache: RootCache): set<Path> {
    set i | 0 <= i < |cache| :: cache[i].0
  }

  /** The detector as a function of the directory alone. */
  function RootAnswer(env: Env): Path -> bool {
    p => IsProjectRoot(env, p)
  }

  /** No path is cached twice. */
  predicate UniquePaths(cache: RootCache) {
    forall i, j :: 0 <= i < j < |cache| ==> cache[i].0 != cache[j].0
  }

  /** Every cached answer is what `answer` gives for its path. */
  predicate Memoises(answer: Path -> bool, cache: RootCache) {
    forall i :: 0 <= i < |cache| ==> cache[i].1 == answer(cache[i].0)
  }

  /** At most `CacheSize` entries, one per path, each the answer the detector
      gives on this filesystem. */
  predicate ValidCache(env: Env, cache: RootCache) {
    |cache| <= CacheSize && UniquePaths(cache) && Memoises(RootAnswer(env), cache)
  }

  /** The cache without entry `i`. */
  function Without(cache: RootCache, i: nat): (rest: RootCache)
    requires i < |cache|
    ensures |rest| == |cache| - 1
    ensures forall j :: 0 <= j < i ==> rest[j] == cache[j]
    ensures forall j :: i <= j < |rest| ==> rest[j] == cache[j + 1]
  {
    cache[..i] + cache[i + 1..]
  }

  /** Taking an entry out keeps one entry per path and every answer. */
  lemma WithoutKeepsAnswers(answer: Path -> bool, cache: RootCache, i: nat)
    requires i < |cache| && UniquePaths(cache) && Memoises(answer, cache)
    ensures UniquePaths(Without(cache, i)) && Memoises(answer, Without(cache, i))
  {
    var rest := Without(cache, i);
    forall a, b | 0 <= a < b < |rest| ensures rest[a].0 != rest[b].0 {
      var a' := if a < i then a else a + 1;
      var b' := if b < i then b else b + 1;
      assert rest[a] == cache[a'] && rest[b] == cache[b'];
    }
  }

  /** Taking out entry `i` of a cache with one entry per path forgets exactly its path. */
  lemma PathsWithout(cache: RootCache, i: nat)
    requires i < |cache| && UniquePaths(cache)
    ensures CachedPaths(Without(cache, i)) == CachedPaths(cache) - {cache[i].0}
  {
    var rest := Without(cache, i);
    forall x | x in CachedPaths(rest) ensures x in CachedPaths(cache) - {cache[i].0} {
      var j :| 0 <= j < |rest| && rest[j].0 == x;
      var j' := if j < i then j else j + 1;
      assert rest[j] == cache[j'];
    }
    forall x | x in CachedPaths(cache) - {cache[i].0} ensures x in CachedPaths(rest) {
      var j :| 0 <= j < |cache| && cache[j].0 == x;
      var j' := if j < i then j else j - 1;
      assert rest[j'] == cache[j];
    }
  }

  /** Recording the answer for a new path as the most recent entry adds its
      path and keeps one entry per path. */
  lemma PathsWith(answer: Path -> bool, cache: RootCache, root: Path)
    requires UniquePaths(cache) && Memoises(answer, cache) && root !in CachedPaths(cache)
    ensures var c := cache + [(root, answer(root))];
            && UniquePaths(c) && Memoises(answer, c)
            && CachedPaths(c) == CachedPaths(cache) + {root}
  {
    var c := cache + [(root, answer(root))];
    assert forall j :: 0 <= j < |cache| ==> c[j] == cache[j] && cache[j].0 in CachedPaths(cache);
    assert c[|cache|] == (root, answer(root));
    forall x | x in CachedPaths(c) ensures x in CachedPaths(cache) + {root} {
      var j :| 0 <= j < |c| && c[j].0 == x;
    }
  }

  /** The position of `root`'s entry, `|cache|` when it has none. */
  method FindEntry(cache: RootCache, root: Path) returns (i: nat)
    ensures i <= |cache|
    ensures i < |cache| ==> cache[i].0 == root
    ensures i == |cache| <==> root !in CachedPaths(cache)
  {
    i := 0;
    while i < |cache| && cache[i].0 != root
      invariant i <= |cache|
      invariant forall j :: 0 <= j < i ==> cache[j].0 != root
    {
      i := i + 1;
    }
  }

  /** The bookkeeping of `lru_cache` for one call on `root`, whose entry (if
      any) is at `i`: a hit moves the entry to the most recent end; a miss
      appends the new answer, evicting the least recently used entry when the
      cache is full. */
  method Record(answer: Path -> bool, cache: RootCache, i: nat, root: Path) returns (updated: RootCache)
    requires |cache| <= CacheSize && UniquePaths(cache) && Memoises(answer, cache)
    requires i <= |cache| && (i < |cache| ==> cache[i].0 == root) && (i == |cache| <==> root !in CachedPaths(cache))
    ensures |updated| <= CacheSize && UniquePaths(updated) && Memoises(answer, updated)
    ensures updated != [] && updated[|updated| - 1] == (root, answer(root))
    ensures i < |cache| ==> updated[..|updated| - 1] == cache[..i] + cache[i + 1..]
    ensures i == |cache| && |cache| < CacheSize ==> updated[..|updated| - 1] == cache
    ensures i == |cache| && |cache| == CacheSize ==> updated[..|updated| - 1] == cache[1..]
    ensures root in CachedPaths(cache) ==> CachedPaths(updated) == CachedPaths(cache) && |updated| == |cache|
    ensures root !in CachedPaths(cache) && |cache| < CacheSize ==>
              CachedPaths(updated) == CachedPaths(cache) + {root} && |updated| == |cache| + 1
    ensures root !in CachedPaths(cache) && |cache| == CacheSize ==>
              CachedPaths(updated) == CachedPaths(cache) - {cache[0].0} + {root} && |updated| == CacheSize
  {
    var kept: RootCache;
    if i < |cache| {
      kept := Without(cache, i);
      WithoutKeepsAnswers(answer, cache, i);
      PathsWithout(cache, i);
    } else if |cache| == CacheSize {
      kept := Without(cache, 0);
      assert kept == cache[1..];
      WithoutKeepsAnswers(answer, cache, 0);
      PathsWithout(cache, 0);
    } else {
      kept := cache;
    }
    PathsWith(answer, kept, root);
    updated := kept + [(root, answer(root))];
    assert updated[..|updated| - 1] == kept;
  }

  /** A memoised call: the cached answer on a hit, the detector's on a miss,
      with `Record`'s bookkeeping. Either way the answer is the uncached one,
      so memoisation changes no result, and the cache stays within its bound
      with every entry correct. */
  method CachedIsProjectRoot(env: Env, cache: RootCache, root: Path) returns (b: bool, updated: RootCache)
    requires ValidCache(env, cache)
    ensures b == IsProjectRoot(env, root)
    ensures ValidCache(env, updated)
    ensures updated != [] && updated[|updated| - 1] == (root, b)
    ensures root in CachedPaths(cache) ==>
              exists i :: 0 <= i < |cache| && cache[i].0 == root && updated[..|updated| - 1] == cache[..i] + cache[i + 1..]
    ensures root !in CachedPaths(cache) && |cache| < CacheSize ==> updated[..|updated| - 1] == cache
    ensures root !in CachedPaths(cache) && |cache| == CacheSize ==> updated[..|updated| - 1] == cache[1..]
    ensures root in CachedPaths(cache) ==> CachedPaths(updated) == CachedPaths(cache) && |updated| == |cache|
    ensures root !in CachedPaths(cache) && |cache| < CacheSize ==>
              CachedPaths(updated) == CachedPaths(cache) + {root} && |updated| == |cache| + 1
    ensures root !in CachedPaths(cache) && |cache| == CacheSize ==>
              CachedPaths(updated) == CachedPaths(cache) - {cache[0].0} + {root} && |updated| == CacheSize
  {
    var i := FindEntry(cache, root);
    if i < |cache| {
      b := cache[i].1;
    } else {
      b := CheckProjectRoot(env, root);
    }
    assert b == RootAnswer(env)(root);
    updated := Record(RootAnswer(env), cache, i, root);
  }
}

=== FILE: resolver.dfy ===
/** `resolve_python_path_from_venv`: the interpreter chosen at server start. */
module Resolver {
  import opened Wrappers
  import opened Paths
  import opened FileSystem
  import opened Config
  import opened Text
  import opened Sequences

  /** The interpreter `binary_from_python_path` looks for under an environment
      root: `Scripts/python.exe` on Windows, `bin/python` elsewhere. */
  function PythonBinary(platform: Platform, path: Path): Path {
    if platform == Windows then Join(Join(path, "Scripts"), "python.exe")
    else Join(Join(path, "bin"), "python")
  }

  /** `binary_from_python_path(path)`: that interpreter, if it is a regular file. */
  function BinaryFromPythonPath(env: Env, path: Path): (r: Option<Path>)
    ensures r.Some? <==> IsFile(env.fs, PythonBinary(env.platform, path))
    ensures r.Some? ==> r.value == PythonBinary(env.platform, path) && IsFile(env.fs, r.value)
  {
    var binary := PythonBinary(env.platform, path);
    if IsFile(env.fs, binary) then Some(binary) else None
  }

  /** `binary_from_venv(root, child)`: the interpreter of `root/child`, provided
      that directory also holds a `pyvenv.cfg` file. */
  function BinaryFromVenv(env: Env, root: Path, child: string): (r: Option<Path>)
    ensures r.Some? <==>
              && IsFile(env.fs, Join(Join(root, child), "pyvenv.cfg"))
              && IsFile(env.fs, PythonBinary(env.platform, Join(root, child)))
    ensures r.Some? ==> r.value == PythonBinary(env.platform, Join(root, child)) && IsFile(env.fs, r.value)
  {
    if IsFile(env.fs, Join(Join(root, child), "pyvenv.cfg")) then BinaryFromPythonPath(env, Join(root, child))
    else None
  }

  // ---------------------------------------------------------------------------
  // The tool rules: marker file, command, post-processing
  // ---------------------------------------------------------------------------

  /** The optional post-processing step of a rule. */
  datatype PostProcessing = Verbatim | BinaryFromPath

  datatype VenvRule = VenvRule(configFile: string, command: seq<string>, post: PostProcessing)

  /** `venv_config_files`, in the order the rules are tried. */
  const VenvConfigFiles: seq<VenvRule> := [
    VenvRule("Pipfile", ["pipenv", "--py"], Verbatim),
    VenvRule("poetry.lock", ["poetry", "env", "info", "-p"], BinaryFromPath),
    VenvRule(".python-version", ["pyenv", "which", "python"], Verbatim)
  ]

  /** What `subprocess.check_output` does: the captured standard output, or one
      of the exceptions it raises. `OtherOsError` stands for any `OSError` other
      than `FileNotFoundError`, which the plugin does not catch. */
  datatype CommandResult = Ok(stdout: string) | NotFound | NonZeroExit | OtherOsError

  /** The external-command oracle: a command line and a working directory. */
  type Runner = (seq<string>, Path) -> CommandResult

  /** The outcomes the cascade catches, logs and moves past. */
  predicate Recoverable(res: CommandResult) {
    res.NotFound? || res.NonZeroExit?
  }

  /** One external command started by the resolver. */
  datatype Invocation = Invocation(command: seq<string>, cwd: Path)

  /** The two warnings the cascade prints. */
  datatype Warning =
    | ToolNotFound(configFile: string, program: string)
    | ToolFailed(configFile: string, command: seq<string>)

  /** The exceptions that escape the resolver. */
  datatype Error = CommandOsError(command: seq<string>) | ListDirFailed(dir: Path)

  /** What a rule makes of its command's stripped output: the output itself
      when the rule has no post-processing step; for the `poetry` rule, the
      environment's interpreter, and nothing when that is not a regular file. */
  function PostProcess(env: Env, post: PostProcessing, output: string): (r: Option<Path>)
    ensures r.None? <==> post == BinaryFromPath && !IsFile(env.fs, PythonBinary(env.platform, output))
    ensures r.Some? && post == Verbatim ==> r.value == output
    ensures r.Some? && post == BinaryFromPath ==> r.value == PythonBinary(env.platform, output) && IsFile(env.fs, r.value)
  {
    match post
    case Verbatim => Some(output)
    case BinaryFromPath => BinaryFromPythonPath(env, output)
  }

  /** Where the rule loop ended: a returned value, the end of the list, or an exception. */
  datatype Verdict = Decided(result: Option<Path>) | FellThrough | Raised(error: Error)

  datatype Cascade = Cascade(verdict: Verdict, invoked: seq<Invocation>, warnings: seq<Warning>)

  /** A rule runs only when its marker is a regular file in the folder. */
  predicate Fires(env: Env, folder: Path, rule: VenvRule) {
    IsFile(env.fs, Join(folder, rule.configFile))
  }

  /** A rule ends the loop when it runs and its command is not a caught failure. */
  predicate Decisive(env: Env, run: Runner, folder: Path, rule: VenvRule) {
    Fires(env, folder, rule) && !Recoverable(run(rule.command, folder))
  }

  /** How a decisive command ends the loop: its stripped output, post-processed
      and returned as it is (also when that is `None`), or the exception. */
  function Decide(env: Env, rule: VenvRule, res: CommandResult): Verdict
    requires !Recoverable(res)
  {
    match res
    case Ok(output) => Decided(PostProcess(env, rule.post, Strip(output)))
    case OtherOsError => Raised(CommandOsError(rule.command))
  }

  /** A command that succeeded and whose stripped output is `p`. */
  predicate PrintedPath(run: Runner, call: Invocation, p: Path) {
    run(call.command, call.cwd).Ok? && Strip(run(call.command, call.cwd).stdout) == p
  }

  predicate ValidRules(rules: seq<VenvRule>) {
    forall i :: 0 <= i < |rules| ==> |rules[i].command| > 0
  }

  /** The `for config_file, command, post_processing in venv_config_files`
      loop. Every command runs in the folder, at most one per rule, and each
      caught failure leaves one warning. */
  function RunRules(env: Env, run: Runner, folder: Path, rules: seq<VenvRule>): (c: Cascade)
    requires ValidRules(rules)
    decreases |rules|
    ensures forall i :: 0 <= i < |c.invoked| ==> c.invoked[i].cwd == folder
    ensures |c.invoked| <= |rules|
    ensures c.verdict.FellThrough? ==> |c.warnings| == |c.invoked|
    ensures !c.verdict.FellThrough? ==> |c.invoked| == |c.warnings| + 1
  {
    if rules == [] then Cascade(FellThrough, [], [])
    else
      var rule := rules[0];
      if !Fires(env, folder, rule) then RunRules(env, run, folder, rules[1..])
      else
        var call := Invocation(rule.command, folder);
        var res := run(rule.command, folder);
        if !Recoverable(res) then Cascade(Decide(env, rule, res), [call], [])
        else
          var rest := RunRules(env, run, folder, rules[1..]);
          var warning := if res.NotFound? then ToolNotFound(rule.configFile, rule.command[0])
                         else ToolFailed(rule.configFile, rule.command);
          Cascade(rest.verdict, [call] + rest.invoked, [warning] + rest.warnings)
  }

  /** The rules whose marker is present, in order. */
  function FiredRules(env: Env, folder: Path, rules: seq<VenvRule>): (fired: seq<VenvRule>)
    ensures |fired| <= |rules|
    ensures forall i :: 0 <= i < |fired| ==> fired[i] in rules && Fires(env, folder, fired[i])
  {
    if rules == [] then []
    else (if Fires(env, folder, rules[0]) then [rules[0]] else []) + FiredRules(env, folder, rules[1..])
  }

  /** Every rule whose marker is present is selected, and the selection keeps
      the order of the rule list. */
  lemma {:induction false} FiredRulesSelects(env: Env, folder: Path, rules: seq<VenvRule>)
    ensures forall r :: r in rules && Fires(env, folder, r) ==> r in FiredRules(env, folder, rules)
    ensures IsSubsequence(FiredRules(env, folder, rules), rules)
  {
    if rules != [] {
      FiredRulesSelects(env, folder, rules[1..]);
      assert rules == [rules[0]] + rules[1..];
      SubsequenceCons(rules[0], FiredRules(env, folder, rules[1..]), rules[1..], Fires(env, folder, rules[0]));
    }
  }

  /** Each marked rule is selected as many times as it occurs, any other not
      at all; with `FiredRulesSelects` this fixes the selection. */
  lemma {:induction false} FiredRulesCounts(env: Env, folder: Path, rules: seq<VenvRule>, r: VenvRule)
    ensures multiset(FiredRules(env, folder, rules))[r] == if Fires(env, folder, r) then multiset(rules)[r] else 0
  {
    if rules != [] {
      var x, tail := rules[0], rules[1..];
      assert FiredRules(env, folder, rules) == (if Fires(env, folder, x) then [x] else []) + FiredRules(env, folder, tail);
      assert rules == [x] + tail;
      FiredRulesCounts(env, folder, tail, r);
      CountCons(x, FiredRules(env, folder, tail), tail, Fires(env, folder, x), r, Fires(env, folder, r));
    }
  }

  /** The index of the first decisive rule, `|rules|` if none. */
  function FirstDecisive(env: Env, run: Runner, folder: Path, rules: seq<VenvRule>): (k: nat)
    ensures k <= |rules|
    ensures forall j :: 0 <= j < k ==> !Decisive(env, run, folder, rules[j])
    ensures k < |rules| ==> Decisive(env, run, folder, rules[k])
  {
    if rules == [] then 0
    else if Decisive(env, run, folder, rules[0]) then 0
    else 1 + FirstDecisive(env, run, folder, rules[1..])
  }

  lemma FiredRulesOfPrefix(env: Env, folder: Path, rules: seq<VenvRule>, m: nat)
    requires 1 <= m <= |rules|
    ensures FiredRules(env, folder, rules[..m]) ==
              (if Fires(env, folder, rules[0]) then [rules[0]] else []) + FiredRules(env, folder, rules[1..][..m - 1])
  {
    assert rules[..m][1..] == rules[1..][..m - 1];
  }

  lemma RestIsValid(rules: seq<VenvRule>)
    requires ValidRules(rules) && rules != []
    ensures ValidRules(rules[1..])
  {
    forall i | 0 <= i < |rules[1..]| ensures |rules[1..][i].command| > 0 {
      assert rules[1..][i] == rules[i + 1];
    }
  }

  /** The rule loop as a first match: the first rule whose marker is a file
      and whose command neither is missing nor exits non-zero decides the
      verdict; when there is none the loop falls through. */
  lemma {:induction false} CascadeIsFirstDecisive(env: Env, run: Runner, folder: Path, rules: seq<VenvRule>)
    requires ValidRules(rules)
    decreases |rules|
    ensures var k := FirstDecisive(env, run, folder, rules);
            var c := RunRules(env, run, folder, rules);
            && (k == |rules| ==> c.verdict == FellThrough)
            && (k < |rules| ==> c.verdict == Decide(env, rules[k], run(rules[k].command, folder)))
  {
    if rules != [] && !Decisive(env, run, folder, rules[0]) {
      RestIsValid(rules);
      CascadeIsFirstDecisive(env, run, folder, rules[1..]);
    }
  }

  /** One step of the loop past a rule without a marker. */
  lemma SkipsUnfired(env: Env, run: Runner, folder: Path, rules: seq<VenvRule>)
    requires ValidRules(rules) && rules != [] && !Fires(env, folder, rules[0])
    ensures ValidRules(rules[1..])
    ensures RunRules(env, run, folder, rules) == RunRules(env, run, folder, rules[1..])
    ensures FirstDecisive(env, run, folder, rules) == 1 + FirstDecisive(env, run, folder, rules[1..])
    ensures FiredRules(env, folder, rules[..FirstDecisive(env, run, folder, rules)]) ==
              FiredRules(env, folder, rules[1..][..FirstDecisive(env, run, folder, rules[1..])])
  {
    RestIsValid(rules);
    FiredRulesOfPrefix(env, folder, rules, FirstDecisive(env, run, folder, rules));
  }

  /** One step of the loop past a rule whose command was missing or failed:
      it ran, and it left one warning naming its marker. */
  lemma SkipsFailed(env: Env, run: Runner, folder: Path, rules: seq<VenvRule>)
    requires ValidRules(rules) && rules != [] && Fires(env, folder, rules[0])
    requires Recoverable(run(rules[0].command, folder))
    ensures ValidRules(rules[1..])
    ensures var c := RunRules(env, run, folder, rules);
            var c' := RunRules(env, run, folder, rules[1..]);
            && c.invoked == [Invocation(rules[0].command, folder)] + c'.invoked
            && |c.warnings| == 1 + |c'.warnings|
            && c.warnings[0].configFile == rules[0].configFile
            && c.warnings[1..] == c'.warnings
    ensures FirstDecisive(env, run, folder, rules) == 1 + FirstDecisive(env, run, folder, rules[1..])
    ensures FiredRules(env, folder, rules[..FirstDecisive(env, run, folder, rules)]) ==
              [rules[0]] + FiredRules(env, folder, rules[1..][..FirstDecisive(env, run, folder, rules[1..])])
  {
    RestIsValid(rules);
    FiredRulesOfPrefix(env, folder, rules, FirstDecisive(env, run, folder, rules));
  }

  /** `invoked` starts with the commands of `rules`, in order, run in `folder`. */
  predicate RanInOrder(invoked: seq<Invocation>, rules: seq<VenvRule>, folder: Path) {
    |rules| <= |invoked| && forall i :: 0 <= i < |rules| ==> invoked[i] == Invocation(rules[i].command, folder)
  }

  lemma RanInOrderCons(invoked: seq<Invocation>, rules: seq<VenvRule>, folder: Path, rule: VenvRule)
    requires RanInOrder(invoked, rules, folder)
    ensures RanInOrder([Invocation(rule.command, folder)] + invoked, [rule] + rules, folder)
  {
    var invoked' := [Invocation(rule.command, folder)] + invoked;
    var rules' := [rule] + rules;
    forall i | 0 < i < |rules'| ensures invoked'[i] == Invocation(rules'[i].command, folder) {
      assert invoked'[i] == invoked[i - 1] && rules'[i] == rules[i - 1];
    }
  }

  /** The rules with a marker before the decisive one ran their command, in
      order, in the folder, and then the decisive rule's command if there is
      one; no other command ran. */
  predicate RunsFiredRules(env: Env, run: Runner, folder: Path, rules: seq<VenvRule>)
    requires ValidRules(rules)
  {
    var k := FirstDecisive(env, run, folder, rules);
    var c := RunRules(env, run, folder, rules);
    var skipped := FiredRules(env, folder, rules[..k]);
    && |c.invoked| == |skipped| + (if k < |rules| then 1 else 0)
    && RanInOrder(c.invoked, skipped, folder)
    && (k < |rules| ==> c.invoked[|skipped|] == Invocation(rules[k].command, folder))
  }

  lemma RunsFiredAfterUnfired(env: Env, run: Runner, folder: Path, rules: seq<VenvRule>)
    requires ValidRules(rules) && rules != [] && !Fires(env, folder, rules[0])
    requires ValidRules(rules[1..]) && RunsFiredRules(env, run, folder, rules[1..])
    ensures RunsFiredRules(env, run, folder, rules)
  {
    SkipsUnfired(env, run, folder, rules);
    var k := FirstDecisive(env, run, folder, rules);
    if k < |rules| {
      assert rules[k] == rules[1..][k - 1];
    }
  }

  lemma RunsFiredAfterFailed(env: Env, run: Runner, folder: Path, rules: seq<VenvRule>)
    requires ValidRules(rules) && rules != [] && Fires(env, folder, rules[0])
    requires Recoverable(run(rules[0].command, folder))
    requires ValidRules(rules[1..]) && RunsFiredRules(env, run, folder, rules[1..])
    ensures RunsFiredRules(env, run, folder, rules)
  {
    SkipsFailed(env, run, folder, rules);
    var k := FirstDecisive(env, run, folder, rules);
    var c' := RunRules(env, run, folder, rules[1..]);
    var skipped' := FiredRules(env, folder, rules[1..][..k - 1]);
    RanInOrderCons(c'.invoked, skipped', folder, rules[0]);
    if k < |rules| {
      assert rules[k] == rules[1..][k - 1];
    }
  }

  /** The commands the rule loop starts: those of the rules with a marker
      before the decisive one, in order, then the decisive rule's. */
  lemma {:induction false} CascadeRunsFiredRules(env: Env, run: Runner, folder: Path, rules: seq<VenvRule>)
    requires ValidRules(rules)
    decreases |rules|
    ensures RunsFiredRules(env, run, folder, rules)
  {
    if FirstDecisive(env, run, folder, rules) == 0 {
      assert rules[..0] == [];
    } else {
      RestIsValid(rules);
      CascadeRunsFiredRules(env, run, folder, rules[1..]);
      if !Fires(env, folder, rules[0]) {
        RunsFiredAfterUnfired(env, run, folder, rules);
      } else {
        RunsFiredAfterFailed(env, run, folder, rules);
      }
    }
  }

  /** Each rule with a marker before the decisive one leaves one warning,
      naming its marker, in order; the decisive rule leaves none. */
  lemma {:induction false} CascadeWarnsPerSkippedRule(env: Env, run: Runner, folder: Path, rules: seq<VenvRule>)
    requires ValidRules(rules)
    decreases |rules|
    ensures var k := FirstDecisive(env, run, folder, rules);
            var c := RunRules(env, run, folder, rules);
            var warned := FiredRules(env, folder, rules[..k]);
            && |c.warnings| == |warned|
            && (forall i :: 0 <= i < |warned| ==> c.warnings[i].configFile == warned[i].configFile)
  {
    if FirstDecisive(env, run, folder, rules) == 0 {
      assert rules[..0] == [];
    } else if !Fires(env, folder, rules[0]) {
      SkipsUnfired(env, run, folder, rules);
      CascadeWarnsPerSkippedRule(env, run, folder, rules[1..]);
    } else {
      SkipsFailed(env, run, folder, rules);
      CascadeWarnsPerSkippedRule(env, run, folder, rules[1..]);
      var c := RunRules(env, run, folder, rules);
      var c' := RunRules(env, run, folder, rules[1..]);
      var warned := FiredRules(env, folder, rules[..FirstDecisive(env, run, folder, rules)]);
      var warned' := FiredRules(env, folder, rules[1..][..FirstDecisive(env, run, folder, rules[1..])]);
      forall i | 0 < i < |warned| ensures c.warnings[i].configFile == warned[i].configFile {
        assert c.warnings[i] == c'.warnings[i - 1];
        assert warned[i] == warned'[i - 1];
      }
    }
  }

  /** A path the rule loop returns is a regular file (the interpreter
      `binary_from_python_path` found) or the stripped output of the last
      command it ran. */
  lemma DecidedPathProvenance(env: Env, run: Runner, folder: Path, rules: seq<VenvRule>)
    requires ValidRules(rules)
    ensures var c := RunRules(env, run, folder, rules);
            c.verdict.Decided? && c.verdict.result.Some? ==>
              IsFile(env.fs, c.verdict.result.value) || PrintedPath(run, c.invoked[|c.invoked| - 1], c.verdict.result.value)
  {
    CascadeIsFirstDecisive(env, run, folder, rules);
    CascadeRunsFiredRules(env, run, folder, rules);
  }

  // ---------------------------------------------------------------------------
  // Virtual environment as a subfolder of the workspace folder
  // ---------------------------------------------------------------------------

  /** `binary_from_venv(workspace_folder, file)` for each listing entry. */
  type ChildProbe = string -> Option<Path>

  function ChildAt(env: Env, root: Path): ChildProbe {
    child => BinaryFromVenv(env, root, child)
  }

  /** A listing entry the loop over `os.listdir` accepts. */
  predicate IsVenvChild(venvOf: ChildProbe, entry: string) {
    entry != "venv" && entry != ".venv" && venvOf(entry).Some?
  }

  /** The `for file in os.listdir(workspace_folder)` loop, from entry `i` on. */
  function SearchListing(venvOf: ChildProbe, entries: seq<string>, i: nat): Option<Path>
    requires i <= |entries|
    decreases |entries| - i
  {
    if i == |entries| then None
    else if entries[i] in {"venv", ".venv"} then SearchListing(venvOf, entries, i + 1)
    else
      var binary := venvOf(entries[i]);
      if binary.Some? then binary else SearchListing(venvOf, entries, i + 1)
  }

  /** The index of the first accepted entry from `i` on, `|entries|` if none. */
  function FirstVenvChild(venvOf: ChildProbe, entries: seq<string>, i: nat): (k: nat)
    requires i <= |entries|
    decreases |entries| - i
    ensures i <= k <= |entries|
    ensures forall j :: i <= j < k ==> !IsVenvChild(venvOf, entries[j])
    ensures k < |entries| ==> IsVenvChild(venvOf, entries[k])
  {
    if i == |entries| || IsVenvChild(venvOf, entries[i]) then i
    else FirstVenvChild(venvOf, entries, i + 1)
  }

  /** The listing loop returns the interpreter of the first entry, in listing
      order, that is neither `venv` nor `.venv` and is a valid venv. */
  lemma {:induction false} SearchListingIsFirstVenvChild(venvOf: ChildProbe, entries: seq<string>, i: nat)
    requires i <= |entries|
    decreases |entries| - i
    ensures var k := FirstVenvChild(venvOf, entries, i);
            SearchListing(venvOf, entries, i) == (if k < |entries| then venvOf(entries[k]) else None)
  {
    if i < |entries| && !IsVenvChild(venvOf, entries[i]) {
      SearchListingIsFirstVenvChild(venvOf, entries, i + 1);
    }
  }

  /** The subfolder search: `venv`, then `.venv`, then the rest of the listing.
      Listing a folder that is not a directory raises. */
  function SubfolderSearch(env: Env, root: Path): (r: Result<Option<Path>, Error>)
    ensures BinaryFromVenv(env, root, "venv").Some? ==> r == Success(BinaryFromVenv(env, root, "venv"))
    ensures BinaryFromVenv(env, root, "venv").None? && BinaryFromVenv(env, root, ".venv").Some? ==>
              r == Success(BinaryFromVenv(env, root, ".venv"))
    ensures BinaryFromVenv(env, root, "venv").None? && BinaryFromVenv(env, root, ".venv").None? ==>
              if !IsDir(env.fs, root) then r == Failure(ListDirFailed(root))
              else
                var entries := env.fs.dirs[root];
                var k := FirstVenvChild(ChildAt(env, root), entries, 0);
                r == Success(if k < |entries| then BinaryFromVenv(env, root, entries[k]) else None)
  {
    var venv := BinaryFromVenv(env, root, "venv");
    if venv.Some? then Success(venv)
    else
      var dotVenv := BinaryFromVenv(env, root, ".venv");
      if dotVenv.Some? then Success(dotVenv)
      else
        match ListDir(env.fs, root)
        case None => Failure(ListDirFailed(root))
        case Some(entries) =>
          SearchListingIsFirstVenvChild(ChildAt(env, root), entries, 0);
          Success(SearchListing(ChildAt(env, root), entries, 0))
  }

  // ---------------------------------------------------------------------------
  // The whole resolver
  // ---------------------------------------------------------------------------

  /** The resolver's answer (or escaping exception), the commands it started
      and the warnings it printed. */
  datatype Outcome = Outcome(result: Result<Option<Path>, Error>, invoked: seq<Invocation>, warnings: seq<Warning>)

  /** `resolve_python_path_from_venv(settings, workspace_folders)`. */
  function ResolvePythonPathFromVenv(settings: Settings, folders: seq<Path>, env: Env, run: Runner): (o: Outcome)
    ensures HasOverride(settings) ==> o == Outcome(Success(settings.pythonPath), [], [])
    ensures !HasOverride(settings) && folders == [] ==> o == Outcome(Success(None), [], [])
    ensures forall i :: 0 <= i < |o.invoked| ==> |folders| > 0 && o.invoked[i].cwd == folders[0]
    ensures |o.invoked| <= |VenvConfigFiles|
  {
    if HasOverride(settings) then Outcome(Success(settings.pythonPath), [], [])
    else if folders == [] then Outcome(Success(None), [], [])
    else
      var folder := folders[0];
      var c := RunRules(env, run, folder, VenvConfigFiles);
      match c.verdict
      case Decided(result) => Outcome(Success(result), c.invoked, c.warnings)
      case Raised(error) => Outcome(Failure(error), c.invoked, c.warnings)
      case FellThrough => Outcome(SubfolderSearch(env, folder), c.invoked, c.warnings)
  }

  /** Without an override and with a workspace folder, the resolver answers
      what the first decisive rule in that folder makes of its command: the
      post-processed stripped output (also when that is nothing), or the
      escaping `OSError`; with no decisive rule, the subfolder search decides. */
  lemma ResolvedByFirstDecisiveRule(settings: Settings, folders: seq<Path>, env: Env, run: Runner)
    ensures !HasOverride(settings) && folders != [] ==>
              var folder := folders[0];
              var rules := VenvConfigFiles;
              var k := FirstDecisive(env, run, folder, rules);
              var o := ResolvePythonPathFromVenv(settings, folders, env, run);
              && (k < |rules| && run(rules[k].command, folder).Ok? ==>
                    o.result == Success(PostProcess(env, rules[k].post, Strip(run(rules[k].command, folder).stdout))))
              && (k < |rules| && run(rules[k].command, folder).OtherOsError? ==>
                    o.result == Failure(CommandOsError(rules[k].command)))
              && (k == |rules| ==> o.result == SubfolderSearch(env, folder))
  {
    if !HasOverride(settings) && folders != [] {
      CascadeIsFirstDecisive(env, run, folders[0], VenvConfigFiles);
    }
  }

  /** Only the first workspace folder is consulted. */
  lemma OnlyFirstFolderMatters(settings: Settings, folders1: seq<Path>, folders2: seq<Path>, env: Env, run: Runner)
    requires |folders1| > 0 && |folders2| > 0 && folders1[0] == folders2[0]
    ensures ResolvePythonPathFromVenv(settings, folders1, env, run) == ResolvePythonPathFromVenv(settings, folders2, env, run)
  {
  }

  /** Without an override, every interpreter the resolver reports is a regular
      file or the stripped output of a command it ran. */
  lemma ResolvedPathProvenance(settings: Settings, folders: seq<Path>, env: Env, run: Runner)
    requires !HasOverride(settings)
    ensures var o := ResolvePythonPathFromVenv(settings, folders, env, run);
            o.result.Success? && o.result.value.Some? ==>
              var p := o.result.value.value;
              IsFile(env.fs, p) || exists i :: 0 <= i < |o.invoked| && PrintedPath(run, o.invoked[i], p)
  {
    if folders != [] {
      var c := RunRules(env, run, folders[0], VenvConfigFiles);
      var o := ResolvePythonPathFromVenv(settings, folders, env, run);
      if c.verdict.Decided? {
        assert o == Outcome(Success(c.verdict.result), c.invoked, c.warnings);
        DecidedPathProvenance(env, run, folders[0], VenvConfigFiles);
        if c.verdict.result.Some? && !IsFile(env.fs, c.verdict.result.value) {
          assert PrintedPath(run, o.invoked[|o.invoked| - 1], o.result.value.value);
        }
      } else if c.verdict.FellThrough? {
        assert o.result == SubfolderSearch(env, folders[0]);
      }
    }
  }

  /** `on_pre_start`'s choice: the resolved path, or `"python"` when the
      resolver returns nothing or the empty string. */
  function StartupPythonPath(settings: Settings, folders: seq<Path>, env: Env, run: Runner): (r: Result<Path, Error>)
    ensures r.Success? ==> r.value != ""
    ensures HasOverride(settings) ==> r == Success(settings.pythonPath.value)
    ensures !HasOverride(settings) && folders == [] ==> r == Success("python")
    ensures var res := ResolvePythonPathFromVenv(settings, folders, env, run).result;
            && (res.Failure? ==> r == Failure(res.error))
            && (res.Success? && res.value.Some? && res.value.value != "" ==> r == Success(res.value.value))
            && (res.Success? && (res.value.None? || res.value.value == "") ==> r == Success("python"))
  {
    match ResolvePythonPathFromVenv(settings, folders, env, run).result
    case Failure(error) => Failure(error)
    case Success(found) => Success(if found.Some? && found.value != "" then found.value else "python")
  }
}

=== FILE: scenarios.dfy ===
/** Concrete consequences of the resolver's rule order and of the places
    where it returns early. */
module Scenarios {
  import opened Wrappers
  import opened Paths
  import opened FileSystem
  import opened Config
  import opened Text
  import opened ProjectRoot
  import opened VenvWalk
  import opened Resolver

  const PipenvPy: seq<string> := ["pipenv", "--py"]
  const PoetryEnvPath: seq<string> := ["poetry", "env", "info", "-p"]
  const PyenvWhich: seq<string> := ["pyenv", "which", "python"]

  /** A `Pipfile` whose `pipenv --py` succeeds decides the interpreter: the
      stripped output, whatever else the folder holds, and no other command runs. */
  lemma PipfileRuleComesFirst(settings: Settings, folders: seq<Path>, env: Env, run: Runner, output: string)
    requires !HasOverride(settings) && |folders| > 0
    requires IsFile(env.fs, Join(folders[0], "Pipfile"))
    requires run(PipenvPy, folders[0]) == Ok(output)
    ensures ResolvePythonPathFromVenv(settings, folders, env, run) ==
              Outcome(Success(Some(Strip(output))), [Invocation(PipenvPy, folders[0])], [])
  {
  }

  /** A `poetry.lock` whose `poetry` is not installed is logged and skipped:
      with no `.python-version` the subfolder search decides. */
  lemma MissingPoetryFallsThrough(settings: Settings, folders: seq<Path>, env: Env, run: Runner)
    requires !HasOverride(settings) && |folders| > 0
    requires !IsFile(env.fs, Join(folders[0], "Pipfile"))
    requires IsFile(env.fs, Join(folders[0], "poetry.lock"))
    requires !IsFile(env.fs, Join(folders[0], ".python-version"))
    requires run(PoetryEnvPath, folders[0]) == NotFound
    ensures ResolvePythonPathFromVenv(settings, folders, env, run) ==
              Outcome(SubfolderSearch(env, folders[0]),
                      [Invocation(PoetryEnvPath, folders[0])],
                      [ToolNotFound("poetry.lock", "poetry")])
  {
  }

  /** When `poetry env info -p` succeeds but its environment has no
      interpreter, the resolver returns nothing at once: neither
      `.python-version` nor a `venv` subfolder is looked at. */
  lemma EmptyPostProcessingIsFinal(settings: Settings, folders: seq<Path>, env: Env, run: Runner, output: string)
    requires !HasOverride(settings) && |folders| > 0
    requires !IsFile(env.fs, Join(folders[0], "Pipfile"))
    requires IsFile(env.fs, Join(folders[0], "poetry.lock"))
    requires run(PoetryEnvPath, folders[0]) == Ok(output)
    requires !IsFile(env.fs, PythonBinary(env.platform, Strip(output)))
    ensures ResolvePythonPathFromVenv(settings, folders, env, run).result == Success(None)
  {
  }

  /** No tool rule runs in a folder without any of the three markers. */
  lemma NoMarkerNoCommand(env: Env, run: Runner, folder: Path)
    requires !IsFile(env.fs, Join(folder, "Pipfile"))
    requires !IsFile(env.fs, Join(folder, "poetry.lock"))
    requires !IsFile(env.fs, Join(folder, ".python-version"))
    ensures RunRules(env, run, folder, VenvConfigFiles) == Cascade(FellThrough, [], [])
  {
    assert VenvConfigFiles[1..][1..][1..] == [];
  }

  const Home: Path := "/home/u"

  // The joined paths the fixtures below consult, one equation each.
  lemma JoinPVenv() ensures Join("/p", "venv") == "/p/venv" {}
  lemma JoinPDotVenv() ensures Join("/p", ".venv") == "/p/.venv" {}
  lemma JoinPPipfile() ensures Join("/p", "Pipfile") == "/p/Pipfile" {}
  lemma JoinPPoetryLock() ensures Join("/p", "poetry.lock") == "/p/poetry.lock" {}
  lemma JoinPPythonVersion() ensures Join("/p", ".python-version") == "/p/.python-version" {}
  lemma JoinPGit() ensures Join("/p", ".git") == "/p/.git" {}
  lemma JoinPVenvCfg() ensures Join("/p/venv", "pyvenv.cfg") == "/p/venv/pyvenv.cfg" {}
  lemma JoinPVenvBin() ensures Join("/p/venv", "bin") == "/p/venv/bin" {}
  lemma JoinPVenvPython() ensures Join("/p/venv/bin", "python") == "/p/venv/bin/python" {}
  lemma JoinPVenvPythonExe() ensures Join("/p/venv/bin", "python.exe") == "/p/venv/bin/python.exe" {}
  lemma JoinPDotVenvCfg() ensures Join("/p/.venv", "pyvenv.cfg") == "/p/.venv/pyvenv.cfg" {}
  lemma JoinPDotVenvBin() ensures Join("/p/.venv", "bin") == "/p/.venv/bin" {}
  lemma JoinPDotVenvPython() ensures Join("/p/.venv/bin", "python") == "/p/.venv/bin/python" {}
  lemma JoinCacheBin() ensures Join("/cache/env", "bin") == "/cache/env/bin" {}
  lemma JoinCachePython() ensures Join("/cache/env/bin", "python") == "/cache/env/bin/python" {}

  /** A folder with `poetry.lock` and a valid `venv`. */
  const PoetryFs: Fs := Fs({"/p/poetry.lock", "/p/venv/pyvenv.cfg", "/p/venv/bin/python"}, map["/p" := ["poetry.lock", "venv"]])

  /** A `poetry` that names an environment without an interpreter. */
  const PoetryOutput: string := "/cache/env"

  lemma PoetryFsHasVenv()
    ensures BinaryFromVenv(Env(PoetryFs, Home, Posix), "/p", "venv") == Some("/p/venv/bin/python")
  {
    JoinPVenv();
    JoinPVenvCfg();
    JoinPVenvBin();
    JoinPVenvPython();
  }

  lemma PoetryFsMarkers()
    ensures !IsFile(PoetryFs, Join("/p", "Pipfile"))
    ensures IsFile(PoetryFs, Join("/p", "poetry.lock"))
  {
    JoinPPipfile();
    JoinPPoetryLock();
  }

  lemma PoetryOutputIsTrimmed()
    ensures Strip(PoetryOutput) == PoetryOutput
  {
    assert PoetryOutput[0] == '/' && PoetryOutput[|PoetryOutput| - 1] == 'v';
    StripKeepsTrimmed(PoetryOutput);
  }

  lemma PoetryOutputHasNoInterpreter()
    ensures !IsFile(PoetryFs, PythonBinary(Posix, PoetryOutput))
  {
    JoinCacheBin();
    JoinCachePython();
  }

  /** A concrete instance of the above: the valid `venv` subfolder is not used. */
  lemma EmptyPostProcessingHidesVenv()
    ensures var env := Env(PoetryFs, Home, Posix);
            var run: Runner := (command, cwd) => Ok(PoetryOutput);
            && BinaryFromVenv(env, "/p", "venv") == Some("/p/venv/bin/python")
            && ResolvePythonPathFromVenv(Settings(None), ["/p"], env, run).result == Success(None)
  {
    var run: Runner := (command, cwd) => Ok(PoetryOutput);
    PoetryFsHasVenv();
    PoetryFsMarkers();
    PoetryOutputIsTrimmed();
    PoetryOutputHasNoInterpreter();
    EmptyPostProcessingIsFinal(Settings(None), ["/p"], Env(PoetryFs, Home, Posix), run, PoetryOutput);
  }

  /** A folder without lock files, holding a valid `.venv`. */
  const DotVenvFs: Fs := Fs({"/p/.venv/pyvenv.cfg", "/p/.venv/bin/python"}, map["/p" := [".venv"]])

  lemma DotVenvFsMarkers()
    ensures !IsFile(DotVenvFs, Join("/p", "Pipfile"))
    ensures !IsFile(DotVenvFs, Join("/p", "poetry.lock"))
    ensures !IsFile(DotVenvFs, Join("/p", ".python-version"))
  {
    JoinPPipfile();
    JoinPPoetryLock();
    JoinPPythonVersion();
  }

  lemma DotVenvFsHasNoVenv()
    ensures BinaryFromVenv(Env(DotVenvFs, Home, Posix), "/p", "venv") == None
  {
    JoinPVenv();
    JoinPVenvCfg();
  }

  lemma DotVenvFsHasDotVenv()
    ensures BinaryFromVenv(Env(DotVenvFs, Home, Posix), "/p", ".venv") == Some("/p/.venv/bin/python")
  {
    JoinPDotVenv();
    JoinPDotVenvCfg();
    JoinPDotVenvBin();
    JoinPDotVenvPython();
  }

  /** With no lock files, a `.venv` holding `pyvenv.cfg` and `bin/python` is
      found, and no command runs. */
  lemma DotVenvIsFound()
    ensures var env := Env(DotVenvFs, Home, Posix);
            var run: Runner := (command, cwd) => NotFound;
            ResolvePythonPathFromVenv(Settings(None), ["/p"], env, run) ==
              Outcome(Success(Some("/p/.venv/bin/python")), [], [])
  {
    var run: Runner := (command, cwd) => NotFound;
    DotVenvFsMarkers();
    NoMarkerNoCommand(Env(DotVenvFs, Home, Posix), run, "/p");
    DotVenvFsHasNoVenv();
    DotVenvFsHasDotVenv();
  }

  /** An explicit `python.pythonPath` wins over a `venv` in the folder. */
  lemma OverrideBeatsVenv()
    ensures var env := Env(Fs({"/p/venv/pyvenv.cfg", "/p/venv/bin/python"}, map["/p" := ["venv"]]), Home, Posix);
            var run: Runner := (command, cwd) => NotFound;
            StartupPythonPath(Settings(Some("/usr/bin/python3")), ["/p"], env, run) == Success("/usr/bin/python3")
  {
  }

  /** A Windows project root whose `venv` has only `Scripts/python.exe`. */
  const ScriptsEnv: Env := Env(Fs({"/p/.git", "/p/venv/Scripts/python.exe"}, map["/p" := ["venv"]]), Home, Windows)

  /** A Windows folder whose `venv` has `bin/python.exe`. */
  const BinEnv: Env := Env(Fs({"/p/venv/bin/python.exe"}, map["/p" := ["venv"]]), Home, Windows)

  lemma WindowsWalkProbesBin()
    ensures VenvBinary(ScriptsEnv, "/p", "venv") == "/p/venv/bin/python.exe"
    ensures VenvBinary(BinEnv, "/p", "venv") == "/p/venv/bin/python.exe"
  {
    JoinPVenv();
    JoinPVenvBin();
    JoinPVenvPythonExe();
  }

  /** The upward walk looks for `venv/bin/python.exe` on Windows too: in a
      project root holding only `venv/Scripts/python.exe` it finds nothing. */
  lemma WalkIgnoresScriptsOnWindows()
    ensures FindVenv(ScriptsEnv, "/p") == None
  {
    WindowsWalkProbesBin();
    assert VenvAt(ScriptsEnv)("/p") == None;
    assert RootAt(ScriptsEnv)("/p") by {
      JoinPGit();
      assert ".git" in RootFiles && Exists(ScriptsEnv.fs, Join("/p", ".git"));
    }
  }

  /** ... and it does find `venv/bin/python.exe`. */
  lemma WalkFindsBinOnWindows()
    ensures FindVenv(BinEnv, "/p") == Some("/p/venv/bin/python.exe")
  {
    WindowsWalkProbesBin();
    assert VenvAt(BinEnv)("/p") == Some("/p/venv/bin/python.exe");
  }
}

=== FILE: sequences.dfy ===
/** Facts about sequences shared by the list operations. */
module Sequences {

  /** `a` is `b` with some elements left out, order kept. */
  predicate IsSubsequence<T(==)>(a: seq<T>, b: seq<T>)
    decreases |b|
  {
    a == [] || (b != [] && if a[0] == b[0] then IsSubsequence(a[1..], b[1..]) else IsSubsequence(a, b[1..]))
  }

  /** A selection from `b`, with `x` in front or without it and not starting
      with it, is one from `[x] + b`. */
  lemma SubsequenceCons<T>(x: T, a: seq<T>, b: seq<T>, keep: bool)
    requires IsSubsequence(a, b)
    requires !keep && a != [] ==> a[0] != x
    ensures IsSubsequence((if keep then [x] else []) + a, [x] + b)
  {
    assert ([x] + b)[1..] == b;
    if keep {
      assert ([x] + a)[1..] == a;
    } else {
      assert [] + a == a;
    }
  }

  /** Counting one element `y` through one step of a selection that keeps
      `x` exactly when `keep` and `y` exactly when `keepY`. */
  lemma CountCons<T>(x: T, a: seq<T>, b: seq<T>, keep: bool, y: T, keepY: bool)
    requires x == y ==> keep == keepY
    requires multiset(a)[y] == if keepY then multiset(b)[y] else 0
    ensures multiset((if keep then [x] else []) + a)[y] == if keepY then multiset([x] + b)[y] else 0
  {
    assert multiset([x] + b) == multiset{x} + multiset(b);
    if keep {
      assert multiset([x] + a) == multiset{x} + multiset(a);
    } else {
      assert [] + a == a;
    }
  }
}

=== FILE: text.dfy ===
/** Python's `str.strip()` with no argument. */
module Text {

  /** `str.isspace` for one character: the characters `strip()` removes. */
  predicate IsSpace(c: char) {
    var n := c as int;
    || (0x09 <= n <= 0x0D)
    || (0x1C <= n <= 0x20)
    || n == 0x85
    || n == 0xA0
    || n == 0x1680
    || (0x2000 <= n <= 0x200A)
    || n == 0x2028
    || n == 0x2029
    || n == 0x202F
    || n == 0x205F
    || n == 0x3000
  }

  predicate AllSpace(s: string) {
    forall k :: 0 <= k < |s| ==> IsSpace(s[k])
  }

  /** The length of the whitespace run `s.lstrip()` removes. */
  function LeadingSpaces(s: string): (n: nat)
    ensures n <= |s| && AllSpace(s[..n])
    ensures n < |s| ==> !IsSpace(s[n])
  {
    if s != [] && IsSpace(s[0]) then
      var n := LeadingSpaces(s[1..]);
      assert forall k :: 0 < k <= n ==> s[1..][k - 1] == s[k];
      1 + n
    else 0
  }

  /** The length of the whitespace run `s.rstrip()` removes. */
  function TrailingSpaces(s: string): (n: nat)
    ensures n <= |s| && AllSpace(s[|s| - n..])
    ensures n < |s| ==> !IsSpace(s[|s| - n - 1])
  {
    if s != [] && IsSpace(s[|s| - 1]) then
      var n := TrailingSpaces(s[..|s| - 1]);
      assert forall k :: |s| - 1 - n <= k < |s| - 1 ==> s[..|s| - 1][k] == s[k];
      1 + n
    else 0
  }

  /** `s.strip()`: what is left between the leading and the trailing
      whitespace; it neither starts nor ends with whitespace. */
  function Strip(s: string): (r: string)
    ensures LeadingSpaces(s) + |r| <= |s|
    ensures r == s[LeadingSpaces(s)..LeadingSpaces(s) + |r|]
    ensures AllSpace(s[LeadingSpaces(s) + |r|..])
    ensures r == [] || (!IsSpace(r[0]) && !IsSpace(r[|r| - 1]))
  {
    var l := s[LeadingSpaces(s)..];
    l[..|l| - TrailingSpaces(l)]
  }

  /** A string that neither starts nor ends with whitespace is its own strip. */
  lemma StripKeepsTrimmed(s: string)
    requires s == [] || (!IsSpace(s[0]) && !IsSpace(s[|s| - 1]))
    ensures Strip(s) == s
  {
    assert LeadingSpaces(s) == 0;
    assert TrailingSpaces(s) == 0;
  }

  /** Stripping twice is stripping once. */
  lemma StripIdempotent(s: string)
    ensures Strip(Strip(s)) == Strip(s)
  {
    StripKeepsTrimmed(Strip(s));
  }
}

=== FILE: venv_walk.dfy ===
/** The upward search for a conventional `venv` (`_venv_path`, `_find_venv`)
    and the resolver built on it (`resolve_virtualenv`). */
module VenvWalk {
  import opened Wrappers
  import opened Paths
  import opened FileSystem
  import opened Config
  import opened ProjectRoot

  /** `python_exe`: the interpreter's file name on the platform. */
  function PythonExe(platform: Platform): string {
    if platform == Windows then "python.exe" else "python"
  }

  /** `root/<venv_name>/bin/<python_exe>`: the walk uses `bin` on every platform. */
  function VenvBinary(env: Env, root: Path, venvName: string): Path {
    Join(Join(Join(root, venvName), "bin"), PythonExe(env.platform))
  }

  /** `_venv_path(root, venv_name)`: the interpreter of `root/<venv_name>` when
      that path exists (as a file or as a directory). */
  function VenvPath(env: Env, root: Path, venvName: string): (r: Option<Path>)
    ensures r.Some? <==> Exists(env.fs, VenvBinary(env, root, venvName))
    ensures r.Some? ==> r.value == VenvBinary(env, root, venvName) && Exists(env.fs, r.value)
  {
    var venv := VenvBinary(env, root, venvName);
    if Exists(env.fs, venv) then Some(venv) else None
  }

  /** The two questions the walk asks about a directory, as oracles:
      "which venv interpreter is here?" and "is this a project root?". */
  type VenvProbe = Path -> Option<Path>
  type RootProbe = Path -> bool

  /** The oracles the plugin's walk uses: `_venv_path(dir)` and `is_project_root(dir)`. */
  function VenvAt(env: Env): VenvProbe {
    dir => VenvPath(env, dir, "venv")
  }

  function RootAt(env: Env): RootProbe {
    dir => IsProjectRoot(env, dir)
  }

  /** The walk ends at a directory holding a venv or at a project root. */
  predicate Stops(venvAt: VenvProbe, isRoot: RootProbe, dir: Path) {
    venvAt(dir).Some? || isRoot(dir)
  }

  /** The `while True` loop of `_find_venv`: check this directory, stop at a
      project root, else move to the parent unless that makes no progress or
      is the home directory. */
  function Walk(venvAt: VenvProbe, isRoot: RootProbe, home: Path, root: Path): Option<Path>
    decreases |root|
  {
    var venv := venvAt(root);
    if venv.Some? then venv
    else if isRoot(root) then None
    else
      var parent := DirName(root);
      if |parent| >= |root| || parent == home then None
      else Walk(venvAt, isRoot, home, parent)
  }

  /** `_find_venv(root)`: nothing is looked at when the start does not exist;
      otherwise the answer is the `venv` interpreter of the first ancestor that
      holds one or is a project root, and nothing when that ancestor has none
      or the ancestors run out. A found interpreter exists. */
  function FindVenv(env: Env, root: Path): (r: Option<Path>)
    ensures !Exists(env.fs, root) ==> r == None
    ensures Exists(env.fs, root) ==>
              var a := Ancestors(env.home, root);
              var k := FirstStop(VenvAt(env), RootAt(env), a);
              r == (if k < |a| then VenvPath(env, a[k], "venv") else None)
    ensures r.Some? ==> Exists(env.fs, r.value)
  {
    if !Exists(env.fs, root) then None
    else
      WalkIsFirstStop(VenvAt(env), RootAt(env), env.home, root);
      WalkFinds(VenvAt(env), RootAt(env), env.home, root);
      Walk(VenvAt(env), RootAt(env), env.home, root)
  }

  /** Each directory of `a` after the first is the `dirname` of the one
      before it, and strictly shorter; none of them is `home`. */
  predicate ParentChain(home: Path, a: seq<Path>) {
    && (forall i, j :: 0 <= i && j == i + 1 < |a| ==> a[j] == DirName(a[i]) && |a[j]| < |a[i]|)
    && (forall i :: 0 < i < |a| ==> a[i] != home)
  }

  lemma ParentChainCons(home: Path, root: Path, rest: seq<Path>)
    requires ParentChain(home, rest) && rest != []
    requires rest[0] == DirName(root) && |rest[0]| < |root| && rest[0] != home
    ensures ParentChain(home, [root] + rest)
  {
    var a := [root] + rest;
    forall i, j | 0 <= i && j == i + 1 < |a| ensures a[j] == DirName(a[i]) && |a[j]| < |a[i]| {
      if i > 0 {
        assert a[i] == rest[i - 1] && a[j] == rest[j - 1];
      }
    }
    forall i | 0 < i < |a| ensures a[i] != home {
      assert a[i] == rest[i - 1];
    }
  }

  /** The directories the walk may pass through, ignoring venvs and project
      roots: `root` and its successive `dirname`s, each strictly shorter, as
      long as the next one is neither the home directory nor no progress. */
  function Ancestors(home: Path, root: Path): (a: seq<Path>)
    decreases |root|
    ensures |a| >= 1 && a[0] == root
    ensures ParentChain(home, a)
    ensures var last := a[|a| - 1]; |DirName(last)| >= |last| || DirName(last) == home
  {
    var parent := DirName(root);
    if |parent| >= |root| || parent == home then [root]
    else
      var rest := Ancestors(home, parent);
      ParentChainCons(home, root, rest);
      [root] + rest
  }

  /** The index of the first directory of `a` at which the walk stops, `|a|` if none. */
  function FirstStop(venvAt: VenvProbe, isRoot: RootProbe, a: seq<Path>): (k: nat)
    ensures k <= |a|
    ensures forall j :: 0 <= j < k ==> !Stops(venvAt, isRoot, a[j])
    ensures k < |a| ==> Stops(venvAt, isRoot, a[k])
  {
    if a == [] then 0
    else if Stops(venvAt, isRoot, a[0]) then 0
    else 1 + FirstStop(venvAt, isRoot, a[1..])
  }

  /** The directories the walk inspects: the ancestors up to and including the
      first one at which it stops. */
  function Visited(venvAt: VenvProbe, isRoot: RootProbe, home: Path, root: Path): (v: seq<Path>)
    ensures |v| >= 1 && v[0] == root
    ensures forall i :: 0 <= i < |v| - 1 ==> !Stops(venvAt, isRoot, v[i])
    ensures forall i :: 0 < i < |v| ==> v[i] != home
  {
    var a := Ancestors(home, root);
    var k := FirstStop(venvAt, isRoot, a);
    if k < |a| then a[..k + 1] else a
  }

  /** The walk returns the venv of the first ancestor at which it stops, and
      nothing when that ancestor is a project root without one or when it
      runs out of ancestors. */
  lemma {:induction false} WalkIsFirstStop(venvAt: VenvProbe, isRoot: RootProbe, home: Path, root: Path)
    decreases |root|
    ensures var a := Ancestors(home, root);
            var k := FirstStop(venvAt, isRoot, a);
            Walk(venvAt, isRoot, home, root) == (if k < |a| then venvAt(a[k]) else None)
  {
    var a := Ancestors(home, root);
    var parent := DirName(root);
    if Stops(venvAt, isRoot, root) {
    } else if |parent| >= |root| || parent == home {
      assert a == [root];
    } else {
      var rest := Ancestors(home, parent);
      assert a == [root] + rest;
      assert a[1..] == rest;
      WalkIsFirstStop(venvAt, isRoot, home, parent);
    }
  }

  /** What the walk finds is the venv of the last visited directory; every
      directory before it holds none and is no project root. */
  lemma WalkFinds(venvAt: VenvProbe, isRoot: RootProbe, home: Path, root: Path)
    ensures var v := Visited(venvAt, isRoot, home, root);
            Walk(venvAt, isRoot, home, root) == venvAt(v[|v| - 1])
  {
    WalkIsFirstStop(venvAt, isRoot, home, root);
  }

  /** Two pairs of oracles that agree on the first `FirstStop` + 1 directories
      of `a` stop at the same place. */
  lemma {:induction false} FirstStopAgrees(venv1: VenvProbe, root1: RootProbe, venv2: VenvProbe, root2: RootProbe, a: seq<Path>)
    requires forall j :: 0 <= j < |a| && j <= FirstStop(venv1, root1, a) ==>
               venv1(a[j]) == venv2(a[j]) && root1(a[j]) == root2(a[j])
    ensures FirstStop(venv1, root1, a) == FirstStop(venv2, root2, a)
  {
    if a != [] && !Stops(venv1, root1, a[0]) {
      forall j | 0 <= j < |a[1..]| && j <= FirstStop(venv1, root1, a[1..])
        ensures venv1(a[1..][j]) == venv2(a[1..][j]) && root1(a[1..][j]) == root2(a[1..][j])
      {
        assert a[1..][j] == a[j + 1];
      }
      FirstStopAgrees(venv1, root1, venv2, root2, a[1..]);
    }
  }

  /** The filesystem questions the walk asks about one directory, answered
      alike on two hosts with the same home directory and platform. */
  predicate SameProbes(env1: Env, env2: Env, dir: Path) {
    && env1.home == env2.home
    && env1.platform == env2.platform
    && (Exists(env1.fs, VenvBinary(env1, dir, "venv")) <==> Exists(env2.fs, VenvBinary(env1, dir, "venv")))
    && forall name :: name in RootFiles ==> (Exists(env1.fs, Join(dir, name)) <==> Exists(env2.fs, Join(dir, name)))
  }

  lemma SameProbesSameAnswers(env1: Env, env2: Env, dir: Path)
    requires SameProbes(env1, env2, dir)
    ensures VenvAt(env1)(dir) == VenvAt(env2)(dir)
    ensures RootAt(env1)(dir) == RootAt(env2)(dir)
  {
  }

  /** `_find_venv` never looks above the directory where it stops: two
      filesystems that agree on the start and on what the visited directories
      hold give the same answer, whatever lies above. */
  lemma FindVenvReadsOnlyVisited(env1: Env, env2: Env, root: Path)
    requires env1.home == env2.home && env1.platform == env2.platform
    requires Exists(env1.fs, root) <==> Exists(env2.fs, root)
    requires forall d :: d in Visited(VenvAt(env1), RootAt(env1), env1.home, root) ==> SameProbes(env1, env2, d)
    ensures FindVenv(env1, root) == FindVenv(env2, root)
  {
    var a := Ancestors(env1.home, root);
    var k := FirstStop(VenvAt(env1), RootAt(env1), a);
    forall j | 0 <= j < |a| && j <= k
      ensures VenvAt(env1)(a[j]) == VenvAt(env2)(a[j]) && RootAt(env1)(a[j]) == RootAt(env2)(a[j])
    {
      assert a[j] in Visited(VenvAt(env1), RootAt(env1), env1.home, root);
      SameProbesSameAnswers(env1, env2, a[j]);
    }
    FirstStopAgrees(VenvAt(env1), RootAt(env1), VenvAt(env2), RootAt(env2), a);
    WalkIsFirstStop(VenvAt(env1), RootAt(env1), env1.home, root);
    WalkIsFirstStop(VenvAt(env2), RootAt(env2), env2.home, root);
  }

  /** `_find_venv(folder)` for each workspace folder. */
  function FindVenvAt(env: Env): VenvProbe {
    folder => FindVenv(env, folder)
  }

  /** The index of the first folder from `i` on whose walk finds a venv,
      `|folders|` if none. */
  function FirstFolderWithVenv(findVenv: VenvProbe, folders: seq<Path>, i: nat): (k: nat)
    requires i <= |folders|
    decreases |folders| - i
    ensures i <= k <= |folders|
    ensures forall j :: i <= j < k ==> findVenv(folders[j]).None?
    ensures k < |folders| ==> findVenv(folders[k]).Some?
  {
    if i == |folders| || findVenv(folders[i]).Some? then i
    else FirstFolderWithVenv(findVenv, folders, i + 1)
  }

  /** The `for folder in folders` loop of `resolve_virtualenv`, from folder `i` on. */
  function FirstVenv(findVenv: VenvProbe, folders: seq<Path>, i: nat): Option<Path>
    requires i <= |folders|
    decreases |folders| - i
  {
    if i == |folders| then None
    else
      match findVenv(folders[i])
      case Some(venv) => Some(venv)
      case None => FirstVenv(findVenv, folders, i + 1)
  }

  lemma {:induction false} FirstVenvIsFirstFolder(findVenv: VenvProbe, folders: seq<Path>, i: nat)
    requires i <= |folders|
    decreases |folders| - i
    ensures var k := FirstFolderWithVenv(findVenv, folders, i);
            FirstVenv(findVenv, folders, i) == (if k < |folders| then findVenv(folders[k]) else None)
  {
    if i < |folders| && findVenv(folders[i]).None? {
      FirstVenvIsFirstFolder(findVenv, folders, i + 1);
    }
  }

  /** `resolve_virtualenv`: a non-empty `python.pythonPath` is returned as it
      is; otherwise the venv of the first folder, in order, whose walk finds one. */
  function ResolveVirtualenv(settings: Settings, folders: seq<Path>, env: Env): (r: Option<Path>)
    ensures HasOverride(settings) ==> r == settings.pythonPath
    ensures !HasOverride(settings) ==>
              var k := FirstFolderWithVenv(FindVenvAt(env), folders, 0);
              r == (if k < |folders| then FindVenv(env, folders[k]) else None)
  {
    if HasOverride(settings) then settings.pythonPath
    else
      FirstVenvIsFirstFolder(FindVenvAt(env), folders, 0);
      FirstVenv(FindVenvAt(env), folders, 0)
  }
}

=== FILE: wrappers.dfy ===
/** The two failure-compatible shapes the model needs. */
module Wrappers {

  /** Python's `Optional[T]`: either `None` or a value. */
  datatype Option<+T> = None | Some(value: T)

  /** A value, or the exception the plugin would let escape to its caller. */
  datatype Result<+T, +E> = Success(value: T) | Failure(error: E)
}
